=== FILE: README.md ===
# queuectl job-queue engine in Dafny

A model of the job-queue engine of `queuectl`, a single-node background job
queue: clients enqueue shell-command jobs, workers claim and run them,
failures are retried with exponential backoff up to a retry budget, and jobs
that exhaust it go to the dead-letter queue (DLQ). Everything is stated as
sequential, pure state transitions.

| file | module | models |
|---|---|---|
| `wrappers.dfy` | `Wrappers` | `Option` / `Result`, standing for `None` returns and raised exceptions |
| `values.dfy` | `Values` | decoded JSON values and Python truthiness / `isinstance` |
| `text.dfy` | `Text` | `str(int)` and `str.strip()` |
| `models.dfy` | `Models` | the `Job` record, its states, `mark_*`, `should_retry`, backoff, `to_dict`/`from_dict` |
| `storage.dfy` | `Storage` | the job store as an ordered table with unique ids, its queries, and loading a damaged file |
| `executor.dfy` | `Executor` | mapping a process outcome to `(success, message)` |
| `workers.dfy` | `Workers` | claim, next-job selection, recording an outcome, one poll, the pool manager |
| `config.dfy` | `Config` | defaults, loading, `get`, validated `set`, `reset` |
| `cli.dfy` | `Cli` | `enqueue`, `dlq retry`, `status`, `worker start`, `config set` |

Modelling choices:

- The store is a `Table`: a sequence of jobs with pairwise distinct ids, in the
  insertion order of the JSON object in the job file. Every operation acts on
  the loaded table, as the source loads, changes and rewrites the whole file.
- Timestamps are natural numbers (seconds). A dictionary value `Stamp(t, zoned)`
  stands for a well-formed ISO-8601 string. `zoned` records whether the string
  carries the UTC suffix.
- `next_retry_at` is `NoRetry`, `At(t, zoned)` or `Unparseable(text)`.
- The clock, the backoff base, the configured `job_timeout` and the outcome of
  running a command are parameters.
- The claim (`Workers.Claim`) is the sequential compare-then-set of the source.
  It is two separately locked store calls in the source, so it gives no
  exclusivity under real concurrency, and nothing here claims it does.
- Behaviour of the code worth knowing when reading the model:
  - With a retry budget `m >= 1` a job is dead on its m-th failure: the
    attempt is counted before the budget is checked (queuectl/worker.py:111-123,
    `Workers.AlwaysFailingJobDiesAfterMaxRetries`). A budget of 1 means no
    retry at all (`Cli.EnqueueThenPoll`). As written, a scheduled retry is
    never picked up at all (see "## Findings").
  - `mark_dead` and `mark_completed` leave `next_retry_at` as it was
    (queuectl/models.py:83-100).
  - The work loop reads the backoff base once, when the worker thread
    starts (queuectl/worker.py:47-48).
  - `enqueue` checks only that `id` and `command` are present, not that
    they are non-empty (queuectl/cli.py:39-41).
  - `Cli.Enqueue` and `Cli.ConfigSetCommand` model the commands as evidently
    intended. As written, both fail on every request they should accept,
    because the name `config` no longer refers to the configuration (see
    "## Findings").
  - Apart from the backoff overflow and field values of unexpected types
    (see "## Left out"), only the `save_job` calls can raise inside
    `_process_job`, because `execute` turns every exception into a failed
    run (queuectl/executor.py:48-49). The exception handler then marks the job
    failed once more, on top of the marking already done
    (queuectl/worker.py:125-138). `Workers.SaveFaults` says which saves raise.

## Model

| member | source | states |
|---|---|---|
| `Models.StateName` | queuectl/models.py:10-16 | each state is stored as its own name, and parsing that name gives the state back |
| `Models.ParseStateInverse` | queuectl/models.py:69 | a parseable name is exactly one of the five state names, and it is the stored name of the state it parses to |
| `Models.NewJob` | queuectl/models.py:22-42 | a new job is pending, with 0 attempts, no retry time, no error, and created and updated at the given time |
| `Models.MarkProcessing` | queuectl/models.py:78-81 | only the state (to processing) and the update time change |
| `Models.MarkCompleted` | queuectl/models.py:83-87 | the job becomes completed and its error is cleared; the attempt count and all other fields are kept |
| `Models.MarkFailed` | queuectl/models.py:89-94 | the job becomes failed, attempts go up by exactly one and the given message is recorded; nothing else changes, retry time included |
| `Models.MarkDead` | queuectl/models.py:96-100 | the job becomes dead with the given message, and the attempt count is unchanged |
| `Models.ShouldRetryAfterFailure` | queuectl/models.py:102-104 | `should_retry` holds after a failure iff the counted attempts stay below `max_retries`; it never holds for a job that is not failed, so never after `mark_dead` or `mark_completed` |
| `Models.RetryDelayGrows` | queuectl/models.py:106-108 | k more failures multiply the delay by base^k, and the delay is at least 1 for base >= 1 |
| `Models.ToDict` | queuectl/models.py:49-61 | the stored record has exactly the nine field keys |
| `Models.FromDict` | queuectl/models.py:63-76 | a decoded job carries the stored id, command and state; a missing `id` is the reported error; absent attempts default to 0, max_retries to 3, creation time to now |
| `Models.DictRoundTrip` | queuectl/models.py:49-76 | decoding the stored dictionary reproduces every field of the job, at any clock reading |
| `Storage.LoadJobs` | queuectl/storage.py:27-37 | loading raises iff the file is not valid text; a missing, unreadable, undecodable or non-object file loads as the empty store; an object loads as itself |
| `Storage.GetJob` | queuectl/storage.py:54-60 | a found job is stored under that id; not found means no stored job has that id |
| `Storage.GetJobFinds` | queuectl/storage.py:54-60 | looking up any stored job by its id returns that job |
| `Storage.SaveJob` | queuectl/storage.py:48-52 | afterwards the id reads back the saved job, every other id reads as before, an overwrite keeps the record's position, and a new record is appended at the end |
| `Storage.DeleteJob` | queuectl/storage.py:102-109 | reports true iff the id was present; afterwards it is absent, every other id reads as before, the size shrinks by one iff it was present, and the records left keep their relative order |
| `Storage.ClearAll` | queuectl/storage.py:111-113 | no id can be found after clearing |
| `Storage.ClearAllEmptiesQueries` | queuectl/storage.py:111-113 | every state and retry query returns nothing after clearing |
| `Storage.Filter` | queuectl/storage.py:62-70 | the selected jobs are exactly the stored jobs the query accepts, no more of them than stored, still with unique ids |
| `Storage.FilterAppend` | queuectl/storage.py:67-70 | selection preserves store order: selecting from a concatenation concatenates the selections |
| `Storage.JobsByState` | queuectl/storage.py:67-70 | returns exactly the stored jobs in the given state |
| `Storage.PendingJobs` | queuectl/storage.py:72-74 | returns exactly the stored pending jobs |
| `Storage.DeadJobs` | queuectl/storage.py:98-100 | returns exactly the stored dead jobs, the DLQ |
| `Storage.FailedJobs` | queuectl/storage.py:76-96 | returns exactly the failed jobs with attempts below the budget whose retry time is absent, unparseable or not after now |
| `Storage.SaveNewJobAppends` | queuectl/storage.py:48-52 | a newly saved job goes to the end of every list that selects it, so queues are first-in first-out |
| `Storage.SaveJobToFile` | queuectl/storage.py:27-52 | saving raises iff the file is not valid text; otherwise it leaves an object holding the job with every other record as before, and a damaged file is replaced by one holding only that job |
| `Storage.FailedJobsAsWritten` | queuectl/storage.py:76-96 | the query as written raises iff some failed, retryable job has a retry time with the UTC suffix; otherwise it agrees with `FailedJobs` |
| `Text.Strip` | queuectl/executor.py:40 | the result is the slice of the input after its leading whitespace, everything cut off is whitespace, and the result neither starts nor ends with whitespace |
| `Text.StripIdempotent` | queuectl/executor.py:40 | stripping twice equals stripping once |
| `Text.NatToStringRoundTrip` | queuectl/worker.py:122 | reading the decimal text of a number back yields the number |
| `Executor.Execute` | queuectl/executor.py:17-49 | success iff the exit code is 0, with no message; a failed exit reports stripped stderr, else stripped stdout, else the exit-code message; timeout, missing command and other errors give their fixed messages |
| `Executor.FailedExitMessageComesFromOutput` | queuectl/executor.py:38-40 | a failed exit's message is a trimmed slice of stderr, or of stdout when stderr is empty, and never starts or ends in whitespace |
| `Executor.ExitCodeMessageNamesCode` | queuectl/executor.py:38-40 | different exit codes with empty output give different messages |
| `Workers.StartWorker` | queuectl/worker.py:30-37 | afterwards the worker is running; a running worker is left unchanged |
| `Workers.Claim` | queuectl/worker.py:85-95 | succeeds iff the job is stored in the caller's snapshot state; on success the stored job is the re-read record marked processing; a failed claim changes nothing; other ids never change |
| `Workers.SelectNext` | queuectl/worker.py:66-83 | only the pending head is tried first; if that list is empty or its claim fails, only the retry head is tried; no job means no change |
| `Workers.NextJobTakesHead` | queuectl/worker.py:66-83 | in one sequential step the worker takes the oldest pending job, else the first failed job ready for retry, else nothing, and that job is stored as processing |
| `Workers.NextJobAsWritten` | queuectl/worker.py:50-83 | with a pending job it agrees with `NextJob`; with none, it takes nothing whenever the as-written retry query raises, and agrees with `NextJob` whenever it does not |
| `Workers.AfterFailure` | queuectl/worker.py:111-123 | the attempt is counted; the job is failed iff attempts remain, then retrying at now + base^attempts with the given message, else dead with the dead-letter message and its old retry time |
| `Workers.Settle` | queuectl/worker.py:97-138 | without a save fault: success gives completed with no error; failure counts an attempt and gives failed retrying at now + base^(attempts+1) if the budget allows, else dead with the max-retries message. If the first save raises, the handler counts one more attempt (two in all after a failed run) and records the unexpected-error message. If both saves raise, nothing is stored |
| `Workers.SaveFailureCountsTwice` | queuectl/worker.py:111-138 | a failed run whose save raises is counted twice, so a job with one retry left goes to the dead-letter queue carrying the save error |
| `Workers.SettleKeepsJobInvariants` | queuectl/worker.py:105-138 | any stored settlement follows a lifecycle edge from processing; a failed job has retries left and a scheduled time, in the future for base >= 1; a dead job has none left |
| `Workers.ProcessJob` | queuectl/worker.py:97-141 | the settled job is stored, or nothing when both saves raise; all other records are untouched, and the current job is cleared |
| `Workers.Poll` | queuectl/worker.py:45-64 | the poll takes the job `NextJob` selects; with none it changes nothing; otherwise only that job's record changes, to the settlement of the process outcome, or it stays processing when both saves raise; the worker ends idle |
| `Workers.PollFollowsLifecycle` | queuectl/worker.py:50-56 | the taken job moves pending-or-failed to processing, then processing to completed, failed or dead; it stays processing iff both saves raise |
| `Workers.AlwaysFailingJobDiesAfterMaxRetries` | queuectl/worker.py:110-123 | a fresh always-failing job with budget m is failed after each of its first m-1 runs and dead after the m-th, with m attempts |
| `Workers.ScheduledRetryBecomesReady` | queuectl/worker.py:113-119 | a scheduled retry is ready for retry exactly when its backoff has elapsed |
| `Workers.ScheduledRetryBreaksQueryAsWritten` | queuectl/storage.py:84-92 | once the worker has scheduled a retry, the retry query as written raises at every later time |
| `Workers.ScheduledRetryStrandedAsWritten` | queuectl/worker.py:66-83 | with nothing pending, the as-written worker takes no job at any later time, while the intended selection takes one once the backoff has elapsed |
| `Workers.ActiveCount` | queuectl/worker.py:205-207 | the active count never exceeds the workers held; it equals their number iff every worker runs, and is zero iff none does |
| `Workers.StartWorkers` | queuectl/worker.py:154-172 | a running pool is unchanged; otherwise it is running, and `count` running workers are appended to the list |
| `Workers.StopWorkers` | queuectl/worker.py:174-203 | a stopped pool is unchanged; otherwise the pool stops with an empty worker list and no active workers |
| `Workers.PoolLifecycle` | queuectl/worker.py:154-207 | starting an idle pool with count >= 1 gives exactly count active workers; stopping returns it to idle with none |
| `Config.Load` | queuectl/config.py:23-35 | loading raises iff the file is not valid text; file entries override defaults and every default key is present; a missing or unreadable file gives exactly the defaults |
| `Config.Get` | queuectl/config.py:45-47 | a stored value wins; else a truthy caller default; else the key's built-in default, or null for an unknown key |
| `Config.GetAfterLoad` | queuectl/config.py:45-47 | after loading, a recognised key always reads its loaded value, and reads the default when the file does not set it |
| `Config.Set` | queuectl/config.py:49-65 | an unknown key is rejected; success iff the key is known and the value has its type; on success only that key changes, to that value |
| `Config.Reset` | queuectl/config.py:71-74 | afterwards exactly the recognised keys are present, each reading its default, and every other key reads null |
| `Config.SettingsStayComplete` | queuectl/config.py:23-74 | loading, `set` and `reset` never lose a recognised key |
| `Cli.Enqueue` | queuectl/cli.py:28-64 | the intended command: invalid JSON, a missing field or a duplicate id are rejected with the store unchanged; otherwise a pending job with 0 attempts and the payload's or configured budget is added at the tail of the pending queue |
| `Cli.DlqRetry` | queuectl/cli.py:178-200 | a missing or non-dead job is rejected with the store unchanged; a dead job returns to pending with attempts, error and retry time reset; it keeps its id, command and position, and leaves the DLQ |
| `Cli.Status` | queuectl/cli.py:98-122 | each state's count is the size of that state's list, the counts sum to the total, and the active count is bounded by the workers held |
| `Cli.CountStates` | queuectl/cli.py:104-113 | the loop over the jobs leaves each state's count equal to the number of jobs in that state, and the counts add up to the number of jobs |
| `Cli.CountsForMeaning` | queuectl/cli.py:104-113 | counting the jobs one at a time, in order, gives, for each state, the number of jobs in that state, and the counts add up to the number of jobs |
| `Cli.KeyFor` | queuectl/cli.py:217-225 | the four dashed keys map to recognised keys; any other key passes through unchanged |
| `Cli.KeyForIdempotent` | queuectl/cli.py:217-225 | mapping a key twice equals mapping it once |
| `Cli.EnqueueAsWritten` | queuectl/cli.py:35-64 | the command as written never changes the store; it reports invalid JSON, a missing field or a duplicate id as intended, and fails with the `AttributeError` of cli.py:53 exactly when the intended command would enqueue |
| `Cli.EnqueueAsWrittenNeverStores` | queuectl/cli.py:35-64 | both versions agree on every rejection, and the intended one stores a job exactly when the as-written one fails on the shadowed name |
| `Cli.ConfigSetCommand` | queuectl/cli.py:209-242 | the intended command: succeeds iff the mapped key is recognised and the text converts to its type; on success only that key changes, to the converted value |
| `Cli.ConfigSetAsWritten` | queuectl/cli.py:209-242 | the command as written always fails with the settings unchanged: text that does not convert is reported as intended, and everything else raises the uncaught `AttributeError` of cli.py:238 |
| `Cli.ConfigSetAsWrittenNeverSets` | queuectl/cli.py:209-242 | both versions agree only on text that does not convert; every setting the intended command stores, and every unknown key it rejects, ends in the `AttributeError` instead |
| `Cli.WorkerStartCommand` | queuectl/cli.py:73-81 | a count below one is refused; otherwise the pool is running, and an idle pool gets exactly count active workers |
| `Cli.EnqueueThenPoll` | queuectl/worker.py:97-123 | with nothing else pending and no save fault, the next poll takes the enqueued job; it ends completed if its command succeeds, and dead after one failure if its budget is at most one |

## Left out

- File I/O: writing the job and configuration files and the PID file. Inside `_process_job` a write failure is the input `Workers.SaveFaults`. Elsewhere the `RuntimeError` it raises is not modelled: the operations succeed.
- Workers.ProcessJob: a save that raises is assumed to leave the job file as it was. `_save_jobs` opens the file with `'w'` (queuectl/storage.py:43-44), which truncates it before writing. A write that fails partway can leave it empty or partial, and the handler's save then loads `{}` and writes a file holding only this job. That loss of every other record is not modelled.
- Workers.Poll: its promise that only the taken job's record changes rests on the same assumption, that a failed save leaves the job file intact.
- Workers.Settle: a field value of an unexpected type is not modelled, because job fields and the backoff base are typed here. Examples: a string `max_retries` stored unchecked, or a non-numeric `backoff_base` merged from the configuration file unchecked (queuectl/config.py:28-32). In the source, `should_retry` at queuectl/worker.py:113 or the backoff at queuectl/worker.py:115 raises `TypeError`. It raises again in the handler, so nothing is stored and the job stays processing.
- Threads, sleeping and joining: the work loop's `while self.running`, the poll sleep, and `stop_workers`' 30-second drain wait and `join`. These are concurrency and wall-clock behaviour. `Workers.Poll` models one loop iteration.
- ISO-8601 formatting and parsing and `datetime.utcnow()`: times are natural numbers, and parseability and zone are carried by the value.
- `subprocess.run` itself: its outcome is the input `Executor.ProcessOutcome`.
- Floating-point arithmetic: the backoff base is a natural number. Configuration floats are Dafny reals, used only as stored values.
- Output text and click argument parsing. `CliText` carries what `int()` and `float()` make of the value text.
- The `list` command's sort by creation time: it only formats output.
- `config show`: as written it raises `AttributeError` at queuectl/cli.py:248 for the reason in "## Findings". Its intended behaviour only formats the output of `Config.get_all`.
- `get_all_jobs` and `Config.get_all`: they return the loaded records decoded, or the map, unchanged. The model's table holds decoded jobs, so a record that does not decode is covered by the `Storage.LoadJobs` line below.
- Models.FromDict: a field of a type the typed record cannot hold is reported as `BadValue`, where Python would store it unchecked and fail later. Examples: a non-string id, a negative or null `attempts`, a non-time creation stamp.
- Storage.LoadJobs: the loaded table holds only records that decode. A stored record that `from_dict` rejects is not modelled: a missing `command` raises `KeyError` and an unknown `state` raises `ValueError` (queuectl/models.py:66-69). In the source such a record makes `get_all_jobs` (queuectl/storage.py:62-65) and so every listing query raise, and `get_job` raises when it finds it. A file whose key differs from its record's `id` is not modelled either. Both can only be written by hand.
- Config.Load: a configuration file holding valid JSON that is not an object is not modelled. `dict.update` accepts some such values: an array of two-element arrays adds those pairs, and an empty array adds nothing. It raises on others, such as a number or `null`.
- Workers.Settle: the `OverflowError` that `base ** attempts` or `timedelta` raise for very large attempt counts (queuectl/worker.py:115-116) is not modelled, because floating point is left out.
- Cli.Enqueue: payload values of unexpected JSON types are not modelled, for example a numeric id or a string `max_retries`. The configured default is taken as an integer parameter.
- Text.Strip: only ASCII whitespace is stripped. Python also strips non-ASCII Unicode whitespace.

## Findings

| source | as written | input that shows it | evidently intended | confidence | as-written member | corrected member |
|---|---|---|---|---|---|---|
| queuectl/storage.py:84-92 | The retry time is parsed after replacing `Z` with `+00:00`, so it is offset-aware. It is compared with the naive `datetime.utcnow()`, which raises `TypeError`. Only `ValueError` and `AttributeError` are caught, so the whole query raises. | A failed job with attempts 1 and budget 3 whose `next_retry_at` the worker wrote as `...Z`: every retry the worker schedules has this form (queuectl/worker.py:117) | Compare the instants, so the job becomes ready once the backoff has elapsed | high (not executed) | `Storage.FailedJobsAsWritten`, `Workers.ScheduledRetryBreaksQueryAsWritten`, `Workers.NextJobAsWritten`, `Workers.ScheduledRetryStrandedAsWritten` | `Storage.FailedJobs`, `Workers.ScheduledRetryBecomesReady`, `Workers.NextJobTakesHead`, `Workers.Poll` |
| queuectl/cli.py:53 | `@cli.group() def config()` at queuectl/cli.py:203-206 rebinds the module name `config` from the `Config()` of queuectl/cli.py:15 to a click group. The default `config.get("max_retries", 3)` is evaluated eagerly, so it raises `AttributeError`. The handler at queuectl/cli.py:62-64 reports it, so no job is ever stored. | `enqueue '{"id":"j1","command":"true"}'` on an empty store | Read the retry budget from the configuration object and store the new pending job | high (not executed) | `Cli.EnqueueAsWritten`, `Cli.EnqueueAsWrittenNeverStores` | `Cli.Enqueue`, `Cli.EnqueueThenPoll` |
| queuectl/cli.py:238 | The same rebinding makes `config.set` raise `AttributeError`. Only `ValueError` is caught, so the command raises and the setting is never stored. An unknown key meets the same error instead of the validation message. | `config set max-retries 5` | Store the converted value through the validating setter | high (not executed) | `Cli.ConfigSetAsWritten`, `Cli.ConfigSetAsWrittenNeverSets` | `Cli.ConfigSetCommand` |

=== FILE: cli.dfy ===
/** The operations queuectl/cli.py offers users, without argument parsing or
    output formatting: enqueueing a job, requeueing from the dead-letter
    queue, the status counts, starting the pool, and setting configuration
    from command-line text. */
module Cli {
  import opened Wrappers
  import opened Values
  import opened Models
  import opened Storage
  import opened Workers
  import Config
  import Executor

  datatype CliError =
    | InvalidJson
    | MissingField
    | DuplicateId(id: string)
    | JobNotFound(id: string)
    | NotInDlq(id: string)
    | InvalidValueType(key: string)
    | Rejected(error: Config.ConfigError)
    | BadWorkerCount(count: int)
    | ConfigShadowed(attribute: string)

  /** The fields of a decoded enqueue payload; `None` is an absent key. */
  datatype Payload = Payload(id: Option<string>, command: Option<string>, maxRetries: Option<int>)

  /** `enqueue`: `payload` is `None` when the text is not valid JSON.
      `configuredMaxRetries` is what the configuration holds for
      `max_retries`. A rejected request leaves the store as it was. */
  function Enqueue(s: Table, payload: Option<Payload>, configuredMaxRetries: int, now: nat)
    : (r: (Table, Result<Job, CliError>))
    ensures payload.None? ==> r == (s, Failure(InvalidJson))
    ensures payload.Some? && (payload.value.id.None? || payload.value.command.None?) ==>
      r == (s, Failure(MissingField))
    ensures (payload.Some? && payload.value.id.Some? && payload.value.command.Some?
             && GetJob(s, payload.value.id.value).Some?) ==>
      r == (s, Failure(DuplicateId(payload.value.id.value)))
    ensures r.1.Success? <==>
      payload.Some? && payload.value.id.Some? && payload.value.command.Some?
      && GetJob(s, payload.value.id.value).None?
    ensures r.1.Success? ==>
      var j := r.1.value;
      && j.id == payload.value.id.value && j.command == payload.value.command.value
      && j.state == Pending && j.attempts == 0
      && j.maxRetries == payload.value.maxRetries.GetOr(configuredMaxRetries)
      && j.nextRetryAt == NoRetry && j.errorMessage == None
      && GetJob(r.0, j.id) == Some(j)
      && PendingJobs(r.0) == PendingJobs(s) + [j]
      && (forall id :: id != j.id ==> GetJob(r.0, id) == GetJob(s, id))
  {
    match payload
    case None => (s, Failure(InvalidJson))
    case Some(p) =>
      if p.id.None? || p.command.None? then (s, Failure(MissingField))
      else if GetJob(s, p.id.value).Some? then (s, Failure(DuplicateId(p.id.value)))
      else
        var j := NewJob(p.id.value, p.command.value, p.maxRetries.GetOr(configuredMaxRetries), now);
        SaveNewJobAppends(s, j, InState(Pending));
        (SaveJob(s, j), Success(j))
  }

  /** `enqueue` as written. The module-level `def config()` that declares
      the `config` command group rebinds the name `config` from the
      configuration object to the click group, so the eagerly evaluated
      default `config.get("max_retries", 3)` raises `AttributeError` ('Group'
      object has no attribute 'get'). The command catches it and reports an
      error, so after the three checks every request fails. */
  function EnqueueAsWritten(s: Table, payload: Option<Payload>): (r: (Table, Result<Job, CliError>))
    ensures r.0 == s && r.1.Failure?
    ensures payload.None? ==> r.1 == Failure(InvalidJson)
    ensures payload.Some? && (payload.value.id.None? || payload.value.command.None?) ==>
      r.1 == Failure(MissingField)
    ensures (payload.Some? && payload.value.id.Some? && payload.value.command.Some?
             && GetJob(s, payload.value.id.value).Some?) ==>
      r.1 == Failure(DuplicateId(payload.value.id.value))
    ensures r.1 == Failure(ConfigShadowed("get")) <==>
      payload.Some? && payload.value.id.Some? && payload.value.command.Some?
      && GetJob(s, payload.value.id.value).None?
  {
    match payload
    case None => (s, Failure(InvalidJson))
    case Some(p) =>
      if p.id.None? || p.command.None? then (s, Failure(MissingField))
      else if GetJob(s, p.id.value).Some? then (s, Failure(DuplicateId(p.id.value)))
      else (s, Failure(ConfigShadowed("get")))
  }

  /** The two `enqueue`s agree on every rejection and disagree on exactly the
      requests the intended command accepts: as written none is stored. */
  lemma EnqueueAsWrittenNeverStores(s: Table, payload: Option<Payload>, configuredMaxRetries: int, now: nat)
    ensures Enqueue(s, payload, configuredMaxRetries, now).1.Failure? ==>
      EnqueueAsWritten(s, payload) == Enqueue(s, payload, configuredMaxRetries, now)
    ensures Enqueue(s, payload, configuredMaxRetries, now).1.Success? <==>
      EnqueueAsWritten(s, payload).1 == Failure(ConfigShadowed("get"))
    ensures Enqueue(s, payload, configuredMaxRetries, now).1.Success? ==>
      |Enqueue(s, payload, configuredMaxRetries, now).0| == |EnqueueAsWritten(s, payload).0| + 1
  {
  }

  /** `dlq retry`: only a dead job can be requeued; it returns to pending
      with its attempts, error and retry time reset, keeping its identity
      and its place in the store. */
  function DlqRetry(s: Table, id: string, now: nat): (r: (Table, Result<Job, CliError>))
    ensures GetJob(s, id).None? ==> r == (s, Failure(JobNotFound(id)))
    ensures GetJob(s, id).Some? && GetJob(s, id).value.state != Dead ==> r == (s, Failure(NotInDlq(id)))
    ensures r.1.Success? <==> GetJob(s, id).Some? && GetJob(s, id).value.state == Dead
    ensures r.1.Success? ==>
      var before := GetJob(s, id).value;
      var j := r.1.value;
      && j.state == Pending && j.attempts == 0 && j.errorMessage == None && j.nextRetryAt == NoRetry
      && j.id == id && j.command == before.command && j.maxRetries == before.maxRetries
      && j.createdAt == before.createdAt && j.updatedAt == now
      && LifecycleEdge(before.state, j.state)
      && GetJob(r.0, id) == Some(j)
      && Find(r.0, id) == Find(s, id)
      && (forall other :: other != id ==> GetJob(r.0, other) == GetJob(s, other))
      && j in PendingJobs(r.0)
      && (forall x :: x in DeadJobs(r.0) ==> x.id != id)
  {
    match GetJob(s, id)
    case None => (s, Failure(JobNotFound(id)))
    case Some(job) =>
      if job.state != Dead then (s, Failure(NotInDlq(id)))
      else
        var j := job.(state := Pending, attempts := 0, errorMessage := None,
                      nextRetryAt := NoRetry, updatedAt := now);
        var t := SaveJob(s, j);
        assert forall x :: x in t && x.id == id ==> x == j;
        (t, Success(j))
  }

  /** The per-state job counts `status` prints. */
  datatype Counts = Counts(pending: nat, processing: nat, completed: nat, failed: nat, dead: nat)

  function CountOf(c: Counts, state: JobState): nat {
    match state
    case Pending => c.pending
    case Processing => c.processing
    case Completed => c.completed
    case Failed => c.failed
    case Dead => c.dead
  }

  function Bump(c: Counts, state: JobState): (r: Counts)
    ensures CountOf(r, state) == CountOf(c, state) + 1
    ensures forall other :: other != state ==> CountOf(r, other) == CountOf(c, other)
    ensures Sum(r) == Sum(c) + 1
  {
    match state
    case Pending => c.(pending := c.pending + 1)
    case Processing => c.(processing := c.processing + 1)
    case Completed => c.(completed := c.completed + 1)
    case Failed => c.(failed := c.failed + 1)
    case Dead => c.(dead := c.dead + 1)
  }

  function Sum(c: Counts): nat {
    c.pending + c.processing + c.completed + c.failed + c.dead
  }

  /** `status`: the total, one count per state, and the active workers. Each
      count is the size of that state's job list, and the counts add up to
      the total. */
  method Status(s: Table, m: Manager) returns (total: nat, counts: Counts, active: nat)
    ensures total == |s|
    ensures forall state :: CountOf(counts, state) == |JobsByState(s, state)|
    ensures Sum(counts) == total
    ensures active == ActiveCount(m) && active <= |m.workers|
  {
    counts := CountStates(s);
    total := |s|;
    active := ActiveCount(m);
  }

  /** The counts of `s`, job by job from the front: a reference definition
      for the loop in `CountStates`. */
  function CountsFor(s: seq<Job>): Counts {
    if |s| == 0 then Counts(0, 0, 0, 0, 0)
    else Bump(CountsFor(s[..|s| - 1]), s[|s| - 1].state)
  }

  /** Each count of `CountsFor(s)` is the size of its state's list over `s`,
      and the counts add up to the number of jobs. */
  lemma CountsForMeaning(s: seq<Job>)
    ensures forall state :: CountOf(CountsFor(s), state) == |Filter(s, InState(state))|
    ensures Sum(CountsFor(s)) == |s|
  {
    forall state ensures CountOf(CountsFor(s), state) == |Filter(s, InState(state))| {
      CountOfCountsFor(s, state);
    }
    SumCountsFor(s);
  }

  lemma {:induction false} CountOfCountsFor(s: seq<Job>, state: JobState)
    ensures CountOf(CountsFor(s), state) == |Filter(s, InState(state))|
  {
    if |s| > 0 {
      CountOfCountsFor(s[..|s| - 1], state);
      FilterDropLast(s, InState(state));
    }
  }

  lemma {:induction false} SumCountsFor(s: seq<Job>)
    ensures Sum(CountsFor(s)) == |s|
  {
    if |s| > 0 {
      SumCountsFor(s[..|s| - 1]);
    }
  }

  /** The per-state counts of `status`, one pass over the jobs. */
  method CountStates(s: seq<Job>) returns (counts: Counts)
    ensures forall state :: CountOf(counts, state) == |Filter(s, InState(state))|
    ensures Sum(counts) == |s|
  {
    counts := Counts(0, 0, 0, 0, 0);
    var i := 0;
    while i < |s|
      invariant i <= |s|
      invariant counts == CountsFor(s[..i])
    {
      assert s[..i + 1][..i] == s[..i];
      counts := Bump(counts, s[i].state);
      i := i + 1;
    }
    assert s[..i] == s;
    CountsForMeaning(s);
  }

  /** The dash-separated spellings `config set` accepts. */
  const DashedKeys: set<string> := {"max-retries", "backoff-base", "worker-poll-interval", "job-timeout"}

  /** `config set`'s key mapping: the four dash-separated spellings become
      the stored keys; any other key passes through unchanged. */
  function KeyFor(key: string): (k: string)
    ensures key in DashedKeys ==> k in Config.Defaults && k != key
    ensures key !in DashedKeys ==> k == key
    ensures k in Config.Defaults <==> key in DashedKeys || key in Config.Defaults
  {
    if key == "max-retries" then "max_retries"
    else if key == "backoff-base" then "backoff_base"
    else if key == "worker-poll-interval" then "worker_poll_interval"
    else if key == "job-timeout" then "job_timeout"
    else key
  }

  /** Mapping a key twice is mapping it once: a stored key is its own spelling. */
  lemma KeyForIdempotent(key: string)
    ensures KeyFor(KeyFor(key)) == KeyFor(key)
  {
  }

  /** The value text of `config set`, with what Python's `int(text)` and
      `float(text)` make of it (`None` where they raise `ValueError`). */
  datatype CliText = CliText(raw: string, asInt: Option<int>, asFloat: Option<real>)

  /** The conversion `config set` applies before storing. */
  predicate Converts(k: string, text: CliText) {
    && (k in {"max_retries", "job_timeout"} ==> text.asInt.Some?)
    && (k in {"backoff_base", "worker_poll_interval"} ==> text.asFloat.Some?)
  }

  function ConfigResult(r: Result<Config.Settings, Config.ConfigError>): Result<Config.Settings, CliError> {
    match r
    case Success(c) => Success(c)
    case Failure(e) => Failure(Rejected(e))
  }

  /** `config set KEY VALUE`: map the key, convert the text to the key's type,
      then store it through the validating setter. The conversion always
      yields a value the setter accepts, so only an unknown key or text
      that does not convert is refused. */
  function ConfigSetCommand(c: Config.Settings, key: string, text: CliText): (r: Result<Config.Settings, CliError>)
    ensures r.Success? <==> KeyFor(key) in Config.Defaults && Converts(KeyFor(key), text)
    ensures KeyFor(key) !in Config.Defaults ==> r == Failure(Rejected(Config.UnknownKey(KeyFor(key))))
    ensures r.Success? ==> r.value.Keys == c.Keys + {KeyFor(key)}
    ensures r.Success? ==> forall k :: k in c && k != KeyFor(key) ==> r.value[k] == c[k]
    ensures r.Success? && KeyFor(key) in {"max_retries", "job_timeout"} ==>
      r.value[KeyFor(key)] == Int(text.asInt.value)
    ensures r.Success? && KeyFor(key) in {"backoff_base", "worker_poll_interval"} ==>
      r.value[KeyFor(key)] == Float(text.asFloat.value)
  {
    var k := KeyFor(key);
    if k in {"max_retries", "job_timeout"} then
      if text.asInt.None? then Failure(InvalidValueType(key))
      else ConfigResult(Config.Set(c, k, Int(text.asInt.value)))
    else if k in {"backoff_base", "worker_poll_interval"} then
      if text.asFloat.None? then Failure(InvalidValueType(key))
      else ConfigResult(Config.Set(c, k, Float(text.asFloat.value)))
    else ConfigResult(Config.Set(c, k, Str(text.raw)))
  }

  /** `config set KEY VALUE` as written. The conversion runs as intended,
      but `config` names the click command group (see `EnqueueAsWritten`),
      so `config.set` raises `AttributeError`, which `except ValueError`
      does not catch: the command fails and the settings never change. */
  function ConfigSetAsWritten(c: Config.Settings, key: string, text: CliText): (r: Result<Config.Settings, CliError>)
    ensures r.Failure?
    ensures !Converts(KeyFor(key), text) ==> r == Failure(InvalidValueType(key))
    ensures Converts(KeyFor(key), text) ==> r == Failure(ConfigShadowed("set"))
  {
    var k := KeyFor(key);
    if k in {"max_retries", "job_timeout"} && text.asInt.None? then Failure(InvalidValueType(key))
    else if k in {"backoff_base", "worker_poll_interval"} && text.asFloat.None? then Failure(InvalidValueType(key))
    else Failure(ConfigShadowed("set"))
  }

  /** Only text that does not convert is reported alike by both versions of
      `config set`: every setting the intended command stores, and every
      unknown key it rejects, ends in the uncaught `AttributeError` instead. */
  lemma ConfigSetAsWrittenNeverSets(c: Config.Settings, key: string, text: CliText)
    ensures !Converts(KeyFor(key), text) ==> ConfigSetAsWritten(c, key, text) == ConfigSetCommand(c, key, text)
    ensures ConfigSetCommand(c, key, text).Success? ==> ConfigSetAsWritten(c, key, text) == Failure(ConfigShadowed("set"))
    ensures KeyFor(key) !in Config.Defaults ==>
      ConfigSetAsWritten(c, key, text) == Failure(ConfigShadowed("set")) != ConfigSetCommand(c, key, text)
  {
  }

  /** `worker start --count N`: a count below one is refused before the pool
      is touched. */
  function WorkerStartCommand(m: Manager, count: int): (r: Result<Manager, CliError>)
    ensures count < 1 ==> r == Failure(BadWorkerCount(count))
    ensures count >= 1 ==> r.Success? && r.value.running
    ensures count >= 1 && !m.running && WellFormed(m) ==> ActiveCount(r.value) == count
    ensures m.running ==> r.Success? ==> r.value == m
  {
    if count < 1 then Failure(BadWorkerCount(count)) else Success(StartWorkers(m, count))
  }

  /** A job enqueued when nothing else is pending is the one the next poll
      takes. If its command succeeds it is completed; if it fails and its
      retry budget is at most one, it is dead after that single poll. */
  lemma EnqueueThenPoll(s: Table, id: string, command: string, maxRetries: Option<int>,
                        configuredMaxRetries: int, w: Worker, proc: Executor.ProcessOutcome,
                        timeout: int, base: nat, now: nat, later: nat)
    requires PendingJobs(s) == [] && GetJob(s, id).None?
    ensures var s1 := Enqueue(s, Some(Payload(Some(id), Some(command), maxRetries)), configuredMaxRetries, now).0;
      var r := Poll(s1, w, proc, NoFault, timeout, base, now, later);
      && r.taken.Some? && r.taken.value.id == id
      && GetJob(r.store, id).Some?
      && (proc.Exited? && proc.code == 0 ==> GetJob(r.store, id).value.state == Completed)
      && (!(proc.Exited? && proc.code == 0) && maxRetries.GetOr(configuredMaxRetries) <= 1 ==>
            GetJob(r.store, id).value.state == Dead)
  {
  }
}

=== FILE: config.dfy ===
/** queuectl/config.py: the flat key/value configuration, seeded with four
    defaults, with type-checked updates. Reading and writing the file is not
    modelled beyond what loading finds in it. */
module Config {
  import opened Wrappers
  import opened Values

  type Settings = map<string, Value>

  /** The four recognised keys and their defaults. */
  const Defaults: Settings := map[
    "max_retries" := Int(3),
    "backoff_base" := Float(2.0),
    "worker_poll_interval" := Float(1.0),
    "job_timeout" := Int(300)]

  /** Every recognised key has a value. */
  predicate Complete(c: Settings) {
    Defaults.Keys <= c.Keys
  }

  /** What loading can find on disk. */
  datatype ConfigFile =
    | Missing
    | Unreadable      // an I/O error or text that is not valid JSON
    | NotText         // bytes that do not decode as text
    | Object(entries: Settings)

  /** `_load_config`: the file's entries laid over the defaults; a missing or
      unreadable file gives the defaults, and a file that is not text makes
      loading raise. */
  function Load(f: ConfigFile): (r: Result<Settings, LoadError>)
    ensures r.Failure? <==> f.NotText?
    ensures r.Success? ==> Complete(r.value)
    ensures f.Object? ==> r.value.Keys == Defaults.Keys + f.entries.Keys
    ensures f.Object? ==> forall k :: k in f.entries ==> r.value[k] == f.entries[k]
    ensures r.Success? ==> forall k :: k in Defaults && !(f.Object? && k in f.entries) ==> r.value[k] == Defaults[k]
    ensures f.Missing? || f.Unreadable? ==> r == Success(Defaults)
  {
    match f
    case Object(entries) => Success(Defaults + entries)
    case NotText => Failure(InvalidText)
    case _ => Success(Defaults)
  }

  /** `get(key, default)`: the stored value, else the caller's default if it
      is truthy, else the built-in default for the key (`Null` for a key
      that has none). */
  function Get(c: Settings, key: string, default: Value): (r: Value)
    ensures key in c ==> r == c[key]
    ensures key !in c && Truthy(default) ==> r == default
    ensures key !in c && !Truthy(default) && key in Defaults ==> r == Defaults[key]
    ensures key !in c && !Truthy(default) && key !in Defaults ==> r == Null
  {
    var fallback := if Truthy(default) then default
                    else if key in Defaults then Defaults[key] else Null;
    if key in c then c[key] else fallback
  }

  /** In loaded settings a recognised key never falls back: `get` returns what
      loading stored. */
  lemma GetAfterLoad(f: ConfigFile, key: string, default: Value)
    requires key in Defaults
    ensures Load(f).Success? ==> Get(Load(f).value, key, default) == Load(f).value[key]
    ensures Load(f).Success? && !(f.Object? && key in f.entries) ==> Get(Load(f).value, key, default) == Defaults[key]
  {
  }

  datatype ConfigError = UnknownKey(key: string) | NotAnInteger(key: string) | NotANumber(key: string)

  /** The type each recognised key demands: integers for the retry limit and
      the timeout, any number for the backoff base and the poll interval. */
  predicate WellTyped(key: string, v: Value) {
    && (key in {"max_retries", "job_timeout"} ==> IsInt(v))
    && (key in {"backoff_base", "worker_poll_interval"} ==> IsNumber(v))
  }

  /** `set`: an unknown key or a wrongly typed value is rejected; otherwise
      exactly that key takes the new value. */
  function Set(c: Settings, key: string, v: Value): (r: Result<Settings, ConfigError>)
    ensures key !in Defaults ==> r == Failure(UnknownKey(key))
    ensures r.Success? <==> key in Defaults && WellTyped(key, v)
    ensures r.Success? ==> key in r.value && r.value[key] == v
    ensures r.Success? ==> r.value.Keys == c.Keys + {key}
    ensures r.Success? ==> forall k :: k in c && k != key ==> r.value[k] == c[k]
  {
    if key !in Defaults then Failure(UnknownKey(key))
    else if key == "max_retries" && !IsInt(v) then Failure(NotAnInteger(key))
    else if key == "backoff_base" && !IsNumber(v) then Failure(NotANumber(key))
    else if key == "worker_poll_interval" && !IsNumber(v) then Failure(NotANumber(key))
    else if key == "job_timeout" && !IsInt(v) then Failure(NotAnInteger(key))
    else Success(c[key := v])
  }

  /** `reset`: back to the defaults, so every recognised key reads its default. */
  function Reset(c: Settings): (r: Settings)
    ensures Complete(r)
    ensures r.Keys == Defaults.Keys
    ensures forall k :: Get(r, k, Null) == if k in Defaults then Defaults[k] else Null
  {
    Defaults
  }

  /** Completeness holds from loading on: `set` and `reset` never lose a
      recognised key. */
  lemma SettingsStayComplete(f: ConfigFile, key: string, v: Value)
    ensures Load(f).Success? ==> Complete(Load(f).value) && Complete(Reset(Load(f).value))
    ensures forall c :: Complete(c) && Set(c, key, v).Success? ==> Complete(Set(c, key, v).value)
  {
  }
}

=== FILE: executor.dfy ===
/** queuectl/executor.py: how the outcome of running a job's command through
    the shell becomes the pair `(success, error_message)` the worker acts on.
    The subprocess itself is not modelled; its outcome is an input. */
module Executor {
  import opened Wrappers
  import opened Text

  /** What `subprocess.run` did: the command exited (with its captured
      output), it outlived the timeout, the shell was not found, or some
      other error was raised (`detail` is `str(e)`). */
  datatype ProcessOutcome =
    | Exited(code: int, stdout: string, stderr: string)
    | TimedOut
    | CommandMissing
    | Crashed(detail: string)

  /** The text reported for a failed exit: stderr if it is non-empty, else
      stdout if non-empty, else a message naming the exit code. */
  function FailureText(code: int, stdout: string, stderr: string): string {
    if stderr != "" then stderr
    else if stdout != "" then stdout
    else "Command failed with exit code " + IntToString(code)
  }

  /** `execute`, with `timeout` the configured `job_timeout`. */
  function Execute(o: ProcessOutcome, timeout: int): (r: (bool, Option<string>))
    ensures r.0 <==> o.Exited? && o.code == 0
    ensures r.0 ==> r.1 == None
    ensures !r.0 ==> r.1.Some?
    ensures o.Exited? && o.code != 0 && o.stderr != "" ==>
      r.1 == Some(Strip(o.stderr))
    ensures o.Exited? && o.code != 0 && o.stderr == "" && o.stdout != "" ==>
      r.1 == Some(Strip(o.stdout))
    ensures o.Exited? && o.code != 0 && o.stderr == "" && o.stdout == "" ==>
      r.1 == Some("Command failed with exit code " + IntToString(o.code))
    ensures o.TimedOut? ==> r.1 == Some("Job timed out after " + IntToString(timeout) + " seconds")
    ensures o.CommandMissing? ==> r.1 == Some("Command not found")
    ensures o.Crashed? ==> r.1 == Some("Execution error: " + o.detail)
  {
    match o
    case Exited(code, stdout, stderr) =>
      if code == 0 then (true, None)
      else (false, Some(Strip(FailureText(code, stdout, stderr))))
    case TimedOut => (false, Some("Job timed out after " + IntToString(timeout) + " seconds"))
    case CommandMissing => (false, Some("Command not found"))
    case Crashed(detail) => (false, Some("Execution error: " + detail))
  }

  /** `m` is a slice of `t` that starts after `t`'s leading whitespace and
      neither begins nor ends in whitespace. */
  predicate TrimmedSliceOf(m: string, t: string) {
    && LeadingSpaces(t) + |m| <= |t|
    && m == t[LeadingSpaces(t)..LeadingSpaces(t) + |m|]
    && (|m| > 0 ==> !IsSpace(m[0]) && !IsSpace(m[|m| - 1]))
  }

  /** The message of a failed exit is a whitespace-trimmed slice of the
      captured stream it came from: stderr if it holds anything, else stdout
      if it does, else the synthesized exit-code text. */
  lemma FailedExitMessageComesFromOutput(code: int, stdout: string, stderr: string, timeout: int)
    requires code != 0
    ensures stderr != "" ==> TrimmedSliceOf(Execute(Exited(code, stdout, stderr), timeout).1.value, stderr)
    ensures stderr == "" && stdout != "" ==> TrimmedSliceOf(Execute(Exited(code, stdout, stderr), timeout).1.value, stdout)
    ensures stderr == "" && stdout == "" ==>
      TrimmedSliceOf(Execute(Exited(code, stdout, stderr), timeout).1.value, FailureText(code, stdout, stderr))
  {
    FailedExitMessage(code, stdout, stderr, timeout);
    StripIsTrimmedSlice(FailureText(code, stdout, stderr));
  }

  lemma StripIsTrimmedSlice(t: string)
    ensures TrimmedSliceOf(Strip(t), t)
  {
  }

  /** A failed exit reports the stripped failure text. */
  lemma FailedExitMessage(code: int, stdout: string, stderr: string, timeout: int)
    requires code != 0
    ensures Execute(Exited(code, stdout, stderr), timeout).1 == Some(Strip(FailureText(code, stdout, stderr)))
  {
  }

  /** The synthesized exit-code message names the exit code exactly: a
      different code gives a different message. */
  lemma ExitCodeMessageNamesCode(c1: int, c2: int, timeout: int)
    requires c1 != 0 && c2 != 0 && c1 != c2
    ensures Execute(Exited(c1, "", ""), timeout) != Execute(Exited(c2, "", ""), timeout)
  {
    var p := "Command failed with exit code ";
    EmptyOutputMessage(c1, timeout);
    EmptyOutputMessage(c2, timeout);
    var m1 := p + IntToString(c1);
    var m2 := p + IntToString(c2);
    if m1 == m2 {
      assert IntToString(c1) == m1[|p|..] == m2[|p|..] == IntToString(c2);
      IntToStringInjective(c1, c2);
    }
  }

  lemma EmptyOutputMessage(code: int, timeout: int)
    requires code != 0
    ensures Execute(Exited(code, "", ""), timeout).1 == Some("Command failed with exit code " + IntToString(code))
  {
  }

  lemma IntToStringInjective(m: int, n: int)
    requires IntToString(m) == IntToString(n)
    ensures m == n
  {
    if m >= 0 && n >= 0 {
      NatToStringInjective(m, n);
    } else if m < 0 && n < 0 {
      NatToStringInjective(-m, -n);
    }
  }
}

=== FILE: models.dfy ===
/** The job record of queuectl/models.py: its five-state lifecycle, the
    `mark_*` transitions, the retry predicate, exponential backoff and the
    conversion to and from the dictionary stored in the job file. */
module Models {
  import opened Wrappers
  import opened Values

  datatype JobState = Pending | Processing | Completed | Failed | Dead

  /** The string each state is stored as. */
  function StateName(st: JobState): (name: string)
    ensures ParseState(name) == Some(st)
  {
    match st
    case Pending => "pending"
    case Processing => "processing"
    case Completed => "completed"
    case Failed => "failed"
    case Dead => "dead"
  }

  /** `JobState(name)`: the state a stored string names; `None` where Python
      raises `ValueError`. */
  function ParseState(name: string): Option<JobState> {
    if name == "pending" then Some(Pending)
    else if name == "processing" then Some(Processing)
    else if name == "completed" then Some(Completed)
    else if name == "failed" then Some(Failed)
    else if name == "dead" then Some(Dead)
    else None
  }

  /** A name that parses is the stored name of the state it parses to, so
      states and their names correspond one to one. */
  lemma ParseStateInverse(name: string)
    ensures ParseState(name).Some? ==> StateName(ParseState(name).value) == name
    ensures ParseState(name).None? <==> name !in {"pending", "processing", "completed", "failed", "dead"}
  {
  }

  /** The lifecycle edges the queue is designed around: a worker claims a
      pending or retry-eligible failed job, finishes it as completed, failed
      or dead, and the dead-letter queue can put a dead job back to pending. */
  predicate LifecycleEdge(from: JobState, to: JobState) {
    || (from == Pending && to == Processing)
    || (from == Failed && to == Processing)
    || (from == Processing && to in {Completed, Failed, Dead})
    || (from == Dead && to == Pending)
  }

  /** When a failed job may be retried. `At` is a parseable time (`zoned`
      when its text ends in the UTC suffix the worker writes); `Unparseable`
      keeps text that is not a valid ISO-8601 time. */
  datatype RetryTime = NoRetry | At(time: nat, zoned: bool) | Unparseable(text: string)

  /** One job. Timestamps are whole seconds; `attempts` counts failed runs. */
  datatype Job = Job(
    id: string,
    command: string,
    state: JobState,
    attempts: nat,
    maxRetries: int,
    createdAt: nat,
    updatedAt: nat,
    nextRetryAt: RetryTime,
    errorMessage: Option<string>)

  /** `Job(job_id, command, max_retries=...)` with every other argument left
      at its default, at clock reading `now`. */
  function NewJob(id: string, command: string, maxRetries: int, now: nat): (j: Job)
    ensures j.id == id && j.command == command && j.maxRetries == maxRetries
    ensures j.state == Pending && j.attempts == 0
    ensures j.createdAt == now && j.updatedAt == now
    ensures j.nextRetryAt == NoRetry && j.errorMessage == None
  {
    Job(id, command, Pending, 0, maxRetries, now, now, NoRetry, None)
  }

  /** `mark_processing`: only the state and the update time change. */
  function MarkProcessing(j: Job, now: nat): (r: Job)
    ensures r.state == Processing && r.updatedAt == now
    ensures r.(state := j.state, updatedAt := j.updatedAt) == j
  {
    j.(state := Processing, updatedAt := now)
  }

  /** `mark_completed`: completed, error cleared, the attempt count kept. */
  function MarkCompleted(j: Job, now: nat): (r: Job)
    ensures r.state == Completed && r.errorMessage == None && r.updatedAt == now
    ensures r.attempts == j.attempts
    ensures r.(state := j.state, updatedAt := j.updatedAt, errorMessage := j.errorMessage) == j
  {
    j.(state := Completed, updatedAt := now, errorMessage := None)
  }

  /** `mark_failed`: failed, one more attempt, the given message recorded;
      `next_retry_at` is left as it was. */
  function MarkFailed(j: Job, message: Option<string>, now: nat): (r: Job)
    ensures r.state == Failed && r.attempts == j.attempts + 1 && r.errorMessage == message
    ensures r.updatedAt == now
    ensures r.(state := j.state, attempts := j.attempts, updatedAt := j.updatedAt,
               errorMessage := j.errorMessage) == j
  {
    j.(state := Failed, attempts := j.attempts + 1, updatedAt := now, errorMessage := message)
  }

  /** `mark_dead`: dead with the given message, the attempt count kept. */
  function MarkDead(j: Job, message: Option<string>, now: nat): (r: Job)
    ensures r.state == Dead && r.errorMessage == message && r.attempts == j.attempts
    ensures r.updatedAt == now
    ensures r.(state := j.state, updatedAt := j.updatedAt, errorMessage := j.errorMessage) == j
  {
    j.(state := Dead, updatedAt := now, errorMessage := message)
  }

  /** `should_retry`. */
  predicate ShouldRetry(j: Job) {
    j.attempts < j.maxRetries && j.state == Failed
  }

  /** A failure leaves a retry exactly when the attempt it counts is still
      below the budget; a job moved to completed or dead, like any job not
      in the failed state, is never retried. */
  lemma ShouldRetryAfterFailure(j: Job, message: Option<string>, now: nat)
    ensures ShouldRetry(MarkFailed(j, message, now)) <==> j.attempts + 1 < j.maxRetries
    ensures j.state != Failed ==> !ShouldRetry(j)
    ensures !ShouldRetry(MarkDead(j, message, now)) && !ShouldRetry(MarkCompleted(j, now))
  {
  }

  /** `b ** e` on natural numbers. */
  function Pow(b: nat, e: nat): nat {
    if e == 0 then 1 else b * Pow(b, e - 1)
  }

  /** `calculate_retry_delay(base)`: the backoff after the job's failures so far. */
  function RetryDelay(j: Job, base: nat): nat {
    Pow(base, j.attempts)
  }

  /** The delay is exponential in the attempt count: `k` more failures
      multiply it by `base ** k`, and it is never zero for a base of at
      least one. */
  lemma RetryDelayGrows(j: Job, base: nat, k: nat)
    ensures RetryDelay(j.(attempts := j.attempts + k), base) == RetryDelay(j, base) * Pow(base, k)
    ensures base >= 1 ==> RetryDelay(j, base) >= 1
  {
    PowAdd(base, j.attempts, k);
    if base >= 1 {
      PowPositive(base, j.attempts);
    }
  }

  lemma {:induction false} PowAdd(b: nat, e1: nat, e2: nat)
    ensures Pow(b, e1 + e2) == Pow(b, e1) * Pow(b, e2)
  {
    if e2 > 0 {
      PowAdd(b, e1, e2 - 1);
      assert Pow(b, e1 + e2) == b * (Pow(b, e1) * Pow(b, e2 - 1));
    }
  }

  lemma {:induction false} PowPositive(b: nat, e: nat)
    requires b >= 1
    ensures Pow(b, e) >= 1
  {
    if e > 0 {
      PowPositive(b, e - 1);
    }
  }

  /** Why a stored dictionary does not decode: a required key is absent
      (`KeyError`), a state name is unknown (`ValueError`), or a value has a
      type the typed record cannot hold. */
  datatype DecodeError = MissingKey(key: string) | UnknownState(name: string) | BadValue(key: string)

  type Dict = map<string, Value>

  function RetryTimeValue(t: RetryTime): Value {
    match t
    case NoRetry => Null
    case At(time, zoned) => Stamp(time, zoned)
    case Unparseable(text) => Str(text)
  }

  function OptionalText(m: Option<string>): Value {
    match m
    case None => Null
    case Some(s) => Str(s)
  }

  /** `to_dict`: the record as stored, every field under its own key;
      creation and update times carry the `Z` suffix `_now` appends. */
  function ToDict(j: Job): (d: Dict)
    ensures d.Keys == {"id", "command", "state", "attempts", "max_retries", "created_at",
                       "updated_at", "next_retry_at", "error_message"}
  {
    map[
      "id" := Str(j.id),
      "command" := Str(j.command),
      "state" := Str(StateName(j.state)),
      "attempts" := Int(j.attempts),
      "max_retries" := Int(j.maxRetries),
      "created_at" := Stamp(j.createdAt, true),
      "updated_at" := Stamp(j.updatedAt, true),
      "next_retry_at" := RetryTimeValue(j.nextRetryAt),
      "error_message" := OptionalText(j.errorMessage)]
  }

  /** A required text field: `data[key]`. */
  function RequiredText(d: Dict, key: string): Result<string, DecodeError> {
    if key !in d then Failure(MissingKey(key))
    else if d[key].Str? then Success(d[key].s)
    else Failure(BadValue(key))
  }

  /** `data.get(key, default)` for an integer field. */
  function IntOr(d: Dict, key: string, default: int): Result<int, DecodeError> {
    if key !in d then Success(default)
    else if d[key].Int? then Success(d[key].i)
    else Failure(BadValue(key))
  }

  /** `data.get(key) or now`: an absent or falsy time means "now". */
  function TimeOr(d: Dict, key: string, now: nat): Result<nat, DecodeError> {
    if key !in d || !Truthy(d[key]) then Success(now)
    else if d[key].Stamp? then Success(d[key].time)
    else Failure(BadValue(key))
  }

  function RetryTimeOf(d: Dict): Result<RetryTime, DecodeError> {
    if "next_retry_at" !in d then Success(NoRetry)
    else match d["next_retry_at"]
      case Null => Success(NoRetry)
      case Stamp(time, zoned) => Success(At(time, zoned))
      case Str(text) => Success(Unparseable(text))
      case _ => Failure(BadValue("next_retry_at"))
  }

  function ErrorMessageOf(d: Dict): Result<Option<string>, DecodeError> {
    if "error_message" !in d then Success(None)
    else match d["error_message"]
      case Null => Success(None)
      case Str(s) => Success(Some(s))
      case _ => Failure(BadValue("error_message"))
  }

  /** `from_dict`, reading the keys in the source's order so that the first
      problem is the one reported. */
  function FromDict(d: Dict, now: nat): (r: Result<Job, DecodeError>)
    ensures r.Success? ==> "id" in d && d["id"] == Str(r.value.id)
    ensures r.Success? ==> "command" in d && d["command"] == Str(r.value.command)
    ensures r.Success? ==> "state" in d && d["state"] == Str(StateName(r.value.state))
    ensures "id" !in d ==> r == Failure(MissingKey("id"))
    ensures r.Success? && "attempts" !in d ==> r.value.attempts == 0
    ensures r.Success? && "max_retries" !in d ==> r.value.maxRetries == 3
    ensures r.Success? && "created_at" !in d ==> r.value.createdAt == now
  {
    match RequiredText(d, "id")
    case Failure(e) => Failure(e)
    case Success(id) =>
      match RequiredText(d, "command")
      case Failure(e) => Failure(e)
      case Success(command) =>
        if "state" !in d then Failure(MissingKey("state"))
        else if !d["state"].Str? then Failure(BadValue("state"))
        else match ParseState(d["state"].s)
        case None => Failure(UnknownState(d["state"].s))
        case Some(state) =>
          match IntOr(d, "attempts", 0)
          case Failure(e) => Failure(e)
          case Success(attempts) =>
            if attempts < 0 then Failure(BadValue("attempts"))
            else match IntOr(d, "max_retries", 3)
            case Failure(e) => Failure(e)
            case Success(maxRetries) =>
              match TimeOr(d, "created_at", now)
              case Failure(e) => Failure(e)
              case Success(createdAt) =>
                match TimeOr(d, "updated_at", now)
                case Failure(e) => Failure(e)
                case Success(updatedAt) =>
                  match RetryTimeOf(d)
                  case Failure(e) => Failure(e)
                  case Success(nextRetryAt) =>
                    match ErrorMessageOf(d)
                    case Failure(e) => Failure(e)
                    case Success(errorMessage) =>
                      Success(Job(id, command, state, attempts, maxRetries, createdAt,
                                  updatedAt, nextRetryAt, errorMessage))
  }

  /** Storing a job and reading it back reproduces every field, whatever the
      clock says at read time. */
  lemma DictRoundTrip(j: Job, now: nat)
    ensures FromDict(ToDict(j), now) == Success(j)
  {
  }
}

=== FILE: storage.dfy ===
/** The job store of queuectl/storage.py: one JSON object mapping each job id
    to its record, held here as the sequence of jobs in the object's
    insertion order. Every operation loads the whole map, changes it and
    writes it back whole. */
module Storage {
  import opened Wrappers
  import opened Values
  import opened Models

  predicate UniqueIds(s: seq<Job>) {
    forall i, k :: 0 <= i < k < |s| ==> s[i].id != s[k].id
  }

  /** The loaded store: a dictionary keyed by job id, so no id occurs twice. */
  type Table = s: seq<Job> | UniqueIds(s) witness []

  /** Position of the record stored under `id`. */
  function Find(s: seq<Job>, id: string): (r: Option<nat>)
    ensures r.Some? ==> r.value < |s| && s[r.value].id == id
    ensures r.None? <==> forall i :: 0 <= i < |s| ==> s[i].id != id
  {
    if |s| == 0 then None
    else if s[0].id == id then Some(0)
    else match Find(s[1..], id)
      case None => None
      case Some(i) => Some(i + 1)
  }

  /** `get_job`. */
  function GetJob(s: Table, id: string): (r: Option<Job>)
    ensures r.Some? ==> r.value in s && r.value.id == id
    ensures r.None? ==> forall j :: j in s ==> j.id != id
  {
    match Find(s, id)
    case None => None
    case Some(i) => Some(s[i])
  }

  /** In a store with unique ids, looking a stored job up by its id finds it. */
  lemma GetJobFinds(s: Table, j: Job)
    requires j in s
    ensures GetJob(s, j.id) == Some(j)
  {
  }

  /** `GetJob` agrees with membership, so two stores with the same members
      answer every lookup alike. */
  lemma SameMembersSameLookups(s: Table, t: Table, id: string)
    requires forall j :: j in s && j.id == id <==> j in t && j.id == id
    ensures GetJob(s, id) == GetJob(t, id)
  {
  }

  /** `save_job`: insert the record under its id, or overwrite the record
      already there in place, so enumeration order is kept. */
  function SaveJob(s: Table, j: Job): (r: Table)
    ensures GetJob(r, j.id) == Some(j)
    ensures forall id :: id != j.id ==> GetJob(r, id) == GetJob(s, id)
    ensures GetJob(s, j.id).Some? ==> |r| == |s| && Find(r, j.id) == Find(s, j.id)
    ensures GetJob(s, j.id).None? ==> |r| == |s| + 1 && r[..|s|] == s && r[|s|] == j
    ensures forall x :: x in r <==> x == j || (x in s && x.id != j.id)
  {
    match Find(s, j.id)
    case Some(i) =>
      var r := s[i := j];
      assert UniqueIds(r);
      assert forall x :: x in r <==> x == j || (x in s && x.id != j.id) by {
        forall x | x in s && x.id != j.id ensures x in r {
          var k :| 0 <= k < |s| && s[k] == x;
          assert r[k] == x;
        }
        assert r[i] == j;
        forall x | x in r && x != j ensures x in s && x.id != j.id {
          var k :| 0 <= k < |r| && r[k] == x;
          assert k != i && s[k] == x;
        }
      }
      FindUpdate(s, i, j, j.id);
      SaveFrame(s, r, j);
      r
    case None =>
      var r := s + [j];
      assert r[..|s|] == s;
      SaveFrame(s, r, j);
      r
  }

  lemma {:induction false} FindUpdate(s: seq<Job>, i: nat, j: Job, id: string)
    requires i < |s| && s[i].id == j.id
    ensures Find(s[i := j], id) == Find(s, id)
  {
    if i > 0 {
      assert s[i := j][1..] == s[1..][i - 1 := j];
      FindUpdate(s[1..], i - 1, j, id);
    }
  }

  lemma SaveFrame(s: Table, r: Table, j: Job)
    requires j in r
    requires forall x :: x in r <==> x == j || (x in s && x.id != j.id)
    ensures GetJob(r, j.id) == Some(j)
    ensures forall id :: id != j.id ==> GetJob(r, id) == GetJob(s, id)
  {
  }

  /** `delete_job`: reports whether the id was present; afterwards it is
      absent, every other record is untouched, and the records left keep
      the order they had. */
  function DeleteJob(s: Table, id: string): (r: (Table, bool))
    ensures r.1 <==> GetJob(s, id).Some?
    ensures !r.1 ==> r.0 == s
    ensures GetJob(r.0, id) == None
    ensures forall other :: other != id ==> GetJob(r.0, other) == GetJob(s, other)
    ensures |r.0| == if r.1 then |s| - 1 else |s|
    ensures forall x :: x in r.0 <==> x in s && x.id != id
    ensures forall a, b :: 0 <= a < b < |r.0| ==> Find(s, r.0[a].id).GetOr(0) < Find(s, r.0[b].id).GetOr(0)
  {
    match Find(s, id)
    case None =>
      StoredInOrder(s);
      (s, false)
    case Some(i) =>
      var t := s[..i] + s[i + 1..];
      RemovedAt(s, i, t);
      (t, true)
  }

  /** Each record of a store is found before the records that follow it. */
  lemma StoredInOrder(s: Table)
    ensures forall a, b :: 0 <= a < b < |s| ==> Find(s, s[a].id).GetOr(0) < Find(s, s[b].id).GetOr(0)
  {
    forall a | 0 <= a < |s| ensures Find(s, s[a].id) == Some(a) {
      FindStored(s, a);
    }
  }

  /** Cutting the record at `i` out of a store leaves a store without its id
      in which every other record is found as before, in the same order. */
  lemma RemovedAt(s: Table, i: nat, t: seq<Job>)
    requires i < |s| && t == s[..i] + s[i + 1..]
    ensures UniqueIds(t)
    ensures GetJob(t, s[i].id) == None
    ensures forall other :: other != s[i].id ==> GetJob(t, other) == GetJob(s, other)
    ensures |t| == |s| - 1
    ensures forall x :: x in t <==> x in s && x.id != s[i].id
    ensures forall a, b :: 0 <= a < b < |t| ==> Find(s, t[a].id).GetOr(0) < Find(s, t[b].id).GetOr(0)
  {
    RemovedMembers(s, i, t);
    RemovedOrder(s, i, t);
    forall other | other != s[i].id
      ensures GetJob(t, other) == GetJob(s, other)
    {
      SameMembersSameLookups(s, t, other);
    }
  }

  lemma RemovedIndex(s: seq<Job>, i: nat, t: seq<Job>)
    requires i < |s| && t == s[..i] + s[i + 1..]
    ensures |t| == |s| - 1
    ensures forall a :: 0 <= a < |t| ==> t[a] == s[if a < i then a else a + 1]
  {
  }

  lemma RemovedMembers(s: Table, i: nat, t: seq<Job>)
    requires i < |s| && t == s[..i] + s[i + 1..]
    ensures UniqueIds(t)
    ensures forall x :: x in t <==> x in s && x.id != s[i].id
  {
    RemovedIndex(s, i, t);
    forall x | x in s && x.id != s[i].id ensures x in t {
      var k :| 0 <= k < |s| && s[k] == x;
      assert k != i;
      if k < i { assert t[k] == x; } else { assert t[k - 1] == x; }
    }
  }

  lemma RemovedOrder(s: Table, i: nat, t: seq<Job>)
    requires i < |s| && t == s[..i] + s[i + 1..]
    ensures forall a, b :: 0 <= a < b < |t| ==> Find(s, t[a].id).GetOr(0) < Find(s, t[b].id).GetOr(0)
  {
    RemovedIndex(s, i, t);
    forall a | 0 <= a < |t| ensures Find(s, t[a].id) == Some(if a < i then a else a + 1) {
      FindStored(s, if a < i then a else a + 1);
    }
  }

  /** In a store with unique ids each record is found at its own position. */
  lemma FindStored(s: Table, k: nat)
    requires k < |s|
    ensures Find(s, s[k].id) == Some(k)
  {
  }

  /** `clear_all`: the empty store; nothing can be looked up in it. */
  function ClearAll(): (r: Table)
    ensures forall id :: GetJob(r, id) == None
  {
    []
  }

  /** What the store queries select. */
  datatype Query = InState(state: JobState) | ReadyAt(now: nat)

  /** `get_failed_jobs`' test for a failed job whose backoff has elapsed:
      retries remain, and the retry time is absent, unparseable or not after
      `now`. */
  predicate ReadyForRetry(j: Job, now: nat) {
    && j.state == Failed
    && ShouldRetry(j)
    && match j.nextRetryAt
       case NoRetry => true
       case Unparseable(_) => true
       case At(time, _) => time <= now
  }

  predicate Selects(q: Query, j: Job) {
    match q
    case InState(state) => j.state == state
    case ReadyAt(now) => ReadyForRetry(j, now)
  }

  /** The jobs `q` selects, in store order. */
  function Filter(s: seq<Job>, q: Query): (r: seq<Job>)
    ensures |r| <= |s|
    ensures forall x :: x in r <==> x in s && Selects(q, x)
    ensures UniqueIds(s) ==> UniqueIds(r)
  {
    if |s| == 0 then []
    else
      var rest := Filter(s[1..], q);
      assert forall x :: x in rest ==> x in s[1..];
      if Selects(q, s[0]) then
        assert UniqueIds(s) ==> forall x :: x in rest ==> x.id != s[0].id;
        [s[0]] + rest
      else rest
  }

  /** Filtering a concatenation filters each part and keeps them in order:
      the selected jobs appear in the order the store enumerates them. */
  lemma {:induction false} FilterAppend(a: seq<Job>, b: seq<Job>, q: Query)
    ensures Filter(a + b, q) == Filter(a, q) + Filter(b, q)
  {
    if |a| > 0 {
      assert (a + b)[1..] == a[1..] + b;
      FilterAppend(a[1..], b, q);
    } else {
      assert a + b == b;
    }
  }

  /** Filtering a store with one more job at the end adds that job at the end
      of the result exactly when the query selects it. */
  lemma FilterAppendOne(s: seq<Job>, j: Job, q: Query)
    ensures Filter(s + [j], q) == Filter(s, q) + (if Selects(q, j) then [j] else [])
  {
    FilterAppend(s, [j], q);
    assert Filter([j], q) == (if Selects(q, j) then [j] else []) by {
      assert [j][1..] == [];
    }
  }

  /** The last job of a store is the last one a query can select from it. */
  lemma FilterDropLast(s: seq<Job>, q: Query)
    requires |s| > 0
    ensures Filter(s, q) == Filter(s[..|s| - 1], q) + (if Selects(q, s[|s| - 1]) then [s[|s| - 1]] else [])
  {
    assert s == s[..|s| - 1] + [s[|s| - 1]];
    FilterAppendOne(s[..|s| - 1], s[|s| - 1], q);
  }

  /** `get_jobs_by_state`. */
  function JobsByState(s: Table, state: JobState): (r: Table)
    ensures forall j :: j in r <==> j in s && j.state == state
  {
    Filter(s, InState(state))
  }

  /** `get_pending_jobs`. */
  function PendingJobs(s: Table): (r: Table)
    ensures forall j :: j in r <==> j in s && j.state == Pending
  {
    JobsByState(s, Pending)
  }

  /** `get_dead_jobs`: the dead-letter queue. */
  function DeadJobs(s: Table): (r: Table)
    ensures forall j :: j in r <==> j in s && j.state == Dead
  {
    JobsByState(s, Dead)
  }

  /** `get_failed_jobs` with the retry-time comparison it evidently intends:
      the failed jobs ready for another attempt at clock reading `now`. */
  function FailedJobs(s: Table, now: nat): (r: Table)
    ensures forall j :: j in r <==> j in s && ReadyForRetry(j, now)
    ensures forall j :: j in r ==> j.state == Failed && j.attempts < j.maxRetries
  {
    Filter(s, ReadyAt(now))
  }

  /** Saving a new job puts it at the end of every list that selects it:
      queries see jobs in the order they were first saved. */
  lemma SaveNewJobAppends(s: Table, j: Job, q: Query)
    requires GetJob(s, j.id) == None
    ensures Filter(SaveJob(s, j), q) == Filter(s, q) + (if Selects(q, j) then [j] else [])
  {
    var r := SaveJob(s, j);
    assert r == s + [j];
    FilterAppendOne(s, j, q);
  }

  /** After `clear_all` every query comes back empty. */
  lemma ClearAllEmptiesQueries(q: Query)
    ensures Filter(ClearAll(), q) == []
  {
  }

  /** What `_load_jobs` can find on disk. */
  datatype StoreFile =
    | Missing
    | Unreadable      // an I/O error while reading
    | NotText         // bytes that do not decode as text
    | Undecodable     // not valid JSON
    | NotAnObject     // valid JSON, but not an object
    | Object(table: Table)

  /** `_load_jobs`: a missing, unreadable, undecodable or non-object file
      loads as the empty store; a file that is not text makes it raise. */
  function LoadJobs(f: StoreFile): (r: Result<Table, LoadError>)
    ensures r.Failure? <==> f.NotText?
    ensures f.Object? ==> r == Success(f.table)
    ensures r.Success? && !f.Object? ==> r.value == []
  {
    match f
    case Object(table) => Success(table)
    case NotText => Failure(InvalidText)
    case _ => Success([])
  }

  /** `save_job` against the file: load, insert, write back whole. A damaged
      file is replaced by one holding just the saved job, except a file that
      is not text, on which loading raises before anything is written. */
  function SaveJobToFile(f: StoreFile, j: Job): (r: Result<StoreFile, LoadError>)
    ensures r.Failure? <==> f.NotText?
    ensures r.Success? ==> r.value.Object? && GetJob(r.value.table, j.id) == Some(j)
    ensures r.Success? && !f.Object? ==> r.value.table == [j]
    ensures f.Object? ==> forall id :: id != j.id ==> GetJob(r.value.table, id) == GetJob(f.table, id)
  {
    match LoadJobs(f)
    case Failure(e) => Failure(e)
    case Success(table) => Success(Object(SaveJob(table, j)))
  }

  /** The text of the `TypeError` Python raises when an offset-aware time is
      compared with a naive one. */
  const NaiveAwareComparison: string := "can't compare offset-naive and offset-aware datetimes"

  /** `get_failed_jobs` as written: it compares the parsed retry time, which
      is offset-aware whenever its text carries the UTC suffix, with the
      naive `datetime.utcnow()`. That comparison raises `TypeError`, which
      the loop does not catch, so the whole query raises at the first such
      job that is failed with retries left. */
  function FailedJobsAsWritten(s: seq<Job>, now: nat): (r: Result<seq<Job>, string>)
    ensures r.Failure? <==> exists i :: 0 <= i < |s| && RaisesOnCompare(s[i])
    ensures r.Success? ==> r.value == Filter(s, ReadyAt(now))
  {
    if |s| == 0 then Success([])
    else if RaisesOnCompare(s[0]) then Failure(NaiveAwareComparison)
    else match FailedJobsAsWritten(s[1..], now)
      case Failure(e) =>
        assert exists i :: 0 <= i < |s[1..]| && RaisesOnCompare(s[1..][i]);
        Failure(e)
      case Success(rest) =>
        Success(if ReadyForRetry(s[0], now) then [s[0]] + rest else rest)
  }

  /** A job on which the as-written retry-time comparison raises. */
  predicate RaisesOnCompare(j: Job) {
    j.state == Failed && ShouldRetry(j) && j.nextRetryAt.At? && j.nextRetryAt.zoned
  }
}

=== FILE: text.dfy ===
/** The two pieces of Python string handling the messages depend on: decimal
    rendering of integers (`f"{n}"`) and `str.strip()`. */
module Text {

  predicate IsDigit(c: char) {
    '0' <= c <= '9'
  }

  function DigitChar(d: nat): (c: char)
    requires d < 10
    ensures IsDigit(c) && c as int - '0' as int == d
  {
    ('0' as int + d) as char
  }

  /** Reads a string of decimal digits back as a number; the inverse of
      `NatToString`. */
  function DigitsValue(s: string): nat
    requires forall i :: 0 <= i < |s| ==> IsDigit(s[i])
  {
    if |s| == 0 then 0
    else
      assert IsDigit(s[|s| - 1]);
      DigitsValue(s[..|s| - 1]) * 10 + (s[|s| - 1] as int - '0' as int)
  }

  /** Decimal text of a natural number, as Python's `str(n)`. */
  function NatToString(n: nat): (r: string)
    ensures |r| >= 1
    ensures forall i :: 0 <= i < |r| ==> IsDigit(r[i])
    ensures n > 0 ==> r[0] != '0'
    ensures n < 10 <==> |r| == 1
  {
    if n < 10 then [DigitChar(n)] else NatToString(n / 10) + [DigitChar(n % 10)]
  }

  /** Decimal text of an integer, with a leading `-` when negative. */
  function IntToString(n: int): (r: string)
    ensures n >= 0 ==> r == NatToString(n)
    ensures n < 0 ==> |r| >= 2 && r[0] == '-' && r[1..] == NatToString(-n)
  {
    if n < 0 then "-" + NatToString(-n) else NatToString(n)
  }

  /** Reading the decimal text back yields the number: the rendering loses
      nothing. */
  lemma {:induction false} NatToStringRoundTrip(n: nat)
    ensures DigitsValue(NatToString(n)) == n
  {
    var r := NatToString(n);
    if n >= 10 {
      NatToStringRoundTrip(n / 10);
      assert r[..|r| - 1] == NatToString(n / 10);
    }
  }

  /** Distinct numbers render as distinct text. */
  lemma NatToStringInjective(m: nat, n: nat)
    requires NatToString(m) == NatToString(n)
    ensures m == n
  {
    NatToStringRoundTrip(m);
    NatToStringRoundTrip(n);
  }

  /** The characters `str.strip()` removes, restricted to the ASCII range. */
  predicate IsSpace(c: char) {
    c == ' ' || c == '\t' || c == '\n' || c == '\r' || c == '\U{B}' || c == '\U{C}'
    || ('\U{1C}' <= c <= '\U{1F}')
  }

  /** `s` without its leading whitespace. */
  function StripStart(s: string): (r: string)
    ensures |r| <= |s| && r == s[|s| - |r|..]
    ensures forall i :: 0 <= i < |s| - |r| ==> IsSpace(s[i])
    ensures |r| > 0 ==> !IsSpace(r[0])
  {
    if |s| > 0 && IsSpace(s[0]) then StripStart(s[1..]) else s
  }

  /** `s` without its trailing whitespace. */
  function StripEnd(s: string): (r: string)
    ensures |r| <= |s| && r == s[..|r|]
    ensures forall i :: |r| <= i < |s| ==> IsSpace(s[i])
    ensures |r| > 0 ==> !IsSpace(r[|r| - 1])
  {
    if |s| > 0 && IsSpace(s[|s| - 1]) then StripEnd(s[..|s| - 1]) else s
  }

  /** How many whitespace characters `str.strip()` cuts from the front of `s`. */
  function LeadingSpaces(s: string): nat {
    |s| - |StripStart(s)|
  }

  /** Python's `str.strip()`: the slice of `s` that starts after its leading
      whitespace and neither starts nor ends with whitespace, everything cut
      off being whitespace. */
  function Strip(s: string): (r: string)
    ensures LeadingSpaces(s) + |r| <= |s|
    ensures r == s[LeadingSpaces(s)..LeadingSpaces(s) + |r|]
    ensures forall k :: 0 <= k < LeadingSpaces(s) ==> IsSpace(s[k])
    ensures forall k :: LeadingSpaces(s) + |r| <= k < |s| ==> IsSpace(s[k])
    ensures |r| > 0 ==> !IsSpace(r[0]) && !IsSpace(r[|r| - 1])
  {
    var t := StripStart(s);
    var r := StripEnd(t);
    TrimmedSlice(s, t, r);
    r
  }

  /** Cutting whitespace from the front of `s` and then from the back of
      what is left leaves a slice of `s` with only whitespace around it. */
  lemma TrimmedSlice(s: string, t: string, r: string)
    requires |t| <= |s| && t == s[|s| - |t|..]
    requires forall i :: 0 <= i < |s| - |t| ==> IsSpace(s[i])
    requires |t| > 0 ==> !IsSpace(t[0])
    requires |r| <= |t| && r == t[..|r|]
    requires forall i :: |r| <= i < |t| ==> IsSpace(t[i])
    requires |r| > 0 ==> !IsSpace(r[|r| - 1])
    ensures |s| - |t| + |r| <= |s|
    ensures r == s[|s| - |t|..|s| - |t| + |r|]
    ensures forall k :: |s| - |t| + |r| <= k < |s| ==> IsSpace(s[k])
    ensures |r| > 0 ==> !IsSpace(r[0]) && !IsSpace(r[|r| - 1])
  {
    var lead := |s| - |t|;
    assert forall k :: lead <= k < |s| ==> s[k] == t[k - lead];
    assert forall j :: 0 <= j < |r| ==> r[j] == s[lead + j];
  }

  /** Stripping twice is stripping once. */
  lemma StripIdempotent(s: string)
    ensures Strip(Strip(s)) == Strip(s)
  {
  }
}

=== FILE: values.dfy ===
/** Decoded JSON values as they appear in the job file, the configuration file
    and the enqueue payload. */
module Values {

  /** Why a file does not load at all: its bytes are not valid text. Python
      raises `UnicodeDecodeError`, a `ValueError` that neither loader's
      `except (json.JSONDecodeError, IOError)` catches. */
  datatype LoadError = InvalidText

  /** One decoded JSON value. `Stamp` stands for a string that holds a
      well-formed ISO-8601 time: `time` is the instant in whole seconds and
      `zoned` says whether the text carries a UTC suffix (`Z` or `+00:00`),
      which makes Python parse it as an offset-aware datetime. */
  datatype Value =
    | Null
    | Bool(b: bool)
    | Int(i: int)
    | Float(x: real)
    | Str(s: string)
    | Stamp(time: nat, zoned: bool)

  /** Python truthiness of a value, which decides every `x or y` in the source. */
  predicate Truthy(v: Value) {
    match v
    case Null => false
    case Bool(b) => b
    case Int(i) => i != 0
    case Float(x) => x != 0.0
    case Str(s) => |s| > 0
    case Stamp(_, _) => true
  }

  /** `isinstance(v, int)`: Python's `bool` is a subclass of `int`. */
  predicate IsInt(v: Value) {
    v.Int? || v.Bool?
  }

  /** `isinstance(v, (int, float))`. */
  predicate IsNumber(v: Value) {
    v.Int? || v.Bool? || v.Float?
  }
}

=== FILE: workers.dfy ===
/** queuectl/worker.py as sequential steps: how a worker selects and claims
    its next job, how it records the outcome of running it, and the pool
    manager's running flag and worker list. Threads, sleeping and joining
    are not modelled. */
module Workers {
  import opened Wrappers
  import opened Text
  import opened Models
  import opened Storage
  import Executor

  /** One worker: its number, its running flag, and the job it is executing. */
  datatype Worker = Worker(workerId: int, running: bool, currentJob: Option<Job>)

  /** `Worker.start`: a running worker is left alone; otherwise it is set
      running. */
  function StartWorker(w: Worker): (r: Worker)
    ensures r.running
    ensures w.running ==> r == w
    ensures r.workerId == w.workerId && r.currentJob == w.currentJob
  {
    if w.running then w else w.(running := true)
  }

  /** The claim test: the store still holds the job, in the state the caller
      saw when it listed it. */
  predicate Claimable(s: Table, snapshot: Job) {
    var current := GetJob(s, snapshot.id);
    current.Some? && current.value.state == snapshot.state
  }

  /** `_claim_job`: re-read the job; if it is still in the state the caller
      saw, store it as processing. A failed claim writes nothing. */
  function Claim(s: Table, snapshot: Job, now: nat): (r: (Table, bool))
    ensures r.1 <==> Claimable(s, snapshot)
    ensures !r.1 ==> r.0 == s
    ensures r.1 ==> GetJob(r.0, snapshot.id) == Some(MarkProcessing(GetJob(s, snapshot.id).value, now))
    ensures r.1 ==> GetJob(r.0, snapshot.id).value.state == Processing
    ensures forall id :: id != snapshot.id ==> GetJob(r.0, id) == GetJob(s, id)
  {
    match GetJob(s, snapshot.id)
    case None => (s, false)
    case Some(current) =>
      if current.state != snapshot.state then (s, false)
      else (SaveJob(s, MarkProcessing(current, now)), true)
  }

  /** The selection of `_get_next_job` given the two lists as the worker
      read them: only the head of the pending list is tried; if that list
      is empty or the claim fails, only the head of the retry list is
      tried. The returned job is the listed snapshot, not the claimed record. */
  function SelectNext(s: Table, pending: seq<Job>, ready: seq<Job>, now: nat): (r: (Table, Option<Job>))
    ensures r.1.None? ==> r.0 == s
    ensures r.1.None? <==>
      (|pending| == 0 || !Claimable(s, pending[0])) && (|ready| == 0 || !Claimable(s, ready[0]))
    ensures |pending| > 0 && Claimable(s, pending[0]) ==> r.1 == Some(pending[0])
    ensures r.1.Some? ==> (|pending| > 0 && r.1 == Some(pending[0])) || (|ready| > 0 && r.1 == Some(ready[0]))
    ensures r.1.Some? ==> Claimable(s, r.1.value) && r.0 == Claim(s, r.1.value, now).0
  {
    if |pending| > 0 && Claim(s, pending[0], now).1 then
      (Claim(s, pending[0], now).0, Some(pending[0]))
    else if |ready| > 0 && Claim(s, ready[0], now).1 then
      (Claim(s, ready[0], now).0, Some(ready[0]))
    else (s, None)
  }

  /** `_get_next_job` against one store: the lists are the store's pending
      jobs and its failed jobs ready for retry. */
  function NextJob(s: Table, now: nat): (Table, Option<Job>) {
    SelectNext(s, PendingJobs(s), FailedJobs(s, now), now)
  }

  /** Within one sequential step a listed head is always claimable, so the
      worker takes the oldest pending job if there is one, else the first
      failed job ready for retry, else nothing; the job it takes is then
      stored as processing. */
  lemma NextJobTakesHead(s: Table, now: nat)
    ensures |PendingJobs(s)| > 0 ==> NextJob(s, now).1 == Some(PendingJobs(s)[0])
    ensures |PendingJobs(s)| == 0 && |FailedJobs(s, now)| > 0 ==>
      NextJob(s, now).1 == Some(FailedJobs(s, now)[0])
    ensures |PendingJobs(s)| == 0 && |FailedJobs(s, now)| == 0 ==> NextJob(s, now) == (s, None)
    ensures NextJob(s, now).1.Some? ==>
      var j := NextJob(s, now).1.value;
      && j in s
      && (j.state == Pending || ReadyForRetry(j, now))
      && GetJob(NextJob(s, now).0, j.id) == Some(MarkProcessing(j, now))
  {
  }

  /** `_get_next_job` as written, as the work loop sees it: when the pending
      list yields no job the as-written retry query runs, and when that
      raises the loop catches the exception, so the pass takes nothing. */
  function NextJobAsWritten(s: Table, now: nat): (r: (Table, Option<Job>))
    ensures r.1.None? ==> r.0 == s
    ensures |PendingJobs(s)| > 0 ==> r == NextJob(s, now)
    ensures FailedJobsAsWritten(s, now).Success? ==> r == NextJob(s, now)
    ensures |PendingJobs(s)| == 0 && FailedJobsAsWritten(s, now).Failure? ==> r == (s, None)
  {
    var pending := PendingJobs(s);
    if |pending| > 0 && Claim(s, pending[0], now).1 then
      (Claim(s, pending[0], now).0, Some(pending[0]))
    else match FailedJobsAsWritten(s, now)
      case Failure(_) => (s, None)
      case Success(ready) => SelectNext(s, [], ready, now)
  }

  /** `f"{message}"` for an optional message. */
  function Render(message: Option<string>): string {
    message.GetOr("None")
  }

  /** The dead-letter message of the ordinary failure path. */
  function MaxRetriesText(maxRetries: int, message: Option<string>): string {
    "Max retries (" + IntToString(maxRetries) + ") exceeded. Last error: " + Render(message)
  }

  /** The shared failure rule: count the attempt; schedule a retry after the
      backoff if attempts remain, otherwise move the job to the dead-letter
      queue with `deadMessage`. */
  function AfterFailure(job: Job, message: Option<string>, deadMessage: Option<string>,
                        base: nat, now: nat): (r: Job)
    ensures r.id == job.id && r.command == job.command && r.maxRetries == job.maxRetries
    ensures r.createdAt == job.createdAt && r.updatedAt == now
    ensures r.attempts == job.attempts + 1
    ensures r.state == Failed || r.state == Dead
    ensures r.state == Failed <==> r.attempts < r.maxRetries
    ensures r.state == Failed ==> r.nextRetryAt == At(now + Pow(base, r.attempts), true) && r.errorMessage == message
    ensures r.state == Dead ==> r.nextRetryAt == job.nextRetryAt && r.errorMessage == deadMessage
  {
    var failed := MarkFailed(job, message, now);
    if ShouldRetry(failed) then
      failed.(nextRetryAt := At(now + RetryDelay(failed, base), true), state := Failed)
    else MarkDead(failed, deadMessage, now)
  }

  /** Which `save_job` calls of `_process_job` raise `RuntimeError`: none;
      the save of the marked record (with `detail` as the exception text),
      after which the exception handler marks the job failed again and its
      own save goes through; or that save and the handler's save too, so the
      exception leaves `_process_job` and nothing is written. */
  datatype SaveFaults = NoFault | FirstSaveFails(detail: string) | BothSavesFail

  /** The record the `try` block of `_process_job` leaves in `job` once
      `execute` returned `run`. */
  function Marked(job: Job, run: (bool, Option<string>), base: nat, now: nat): Job {
    if run.0 then MarkCompleted(job, now)
    else AfterFailure(job, run.1, Some(MaxRetriesText(job.maxRetries, run.1)), base, now)
  }

  /** The text the exception handler records. */
  function UnexpectedError(detail: string): string {
    "Unexpected error: " + detail
  }

  /** The record `_process_job` stores for `job` once `execute` returned
      `run` and the saves behaved as `fault` says, at clock reading `now`
      with backoff base `base`; `None` when nothing is stored. `execute`
      turns every exception into a failed run, so apart from the backoff
      overflow and field values of unexpected types, only the saves raise. */
  function Settle(job: Job, run: (bool, Option<string>), fault: SaveFaults, base: nat, now: nat): (r: Option<Job>)
    ensures r.None? <==> fault.BothSavesFail?
    ensures r.Some? ==>
      && r.value.id == job.id && r.value.command == job.command
      && r.value.maxRetries == job.maxRetries && r.value.createdAt == job.createdAt
      && r.value.updatedAt == now
    ensures fault.NoFault? && run.0 ==>
      r.value.state == Completed && r.value.errorMessage == None && r.value.attempts == job.attempts
      && r.value.nextRetryAt == job.nextRetryAt
    ensures fault.NoFault? && !run.0 ==> r.value.attempts == job.attempts + 1
    ensures fault.NoFault? && !run.0 && job.attempts + 1 < job.maxRetries ==>
      && r.value.state == Failed
      && r.value.nextRetryAt == At(now + Pow(base, job.attempts + 1), true)
      && r.value.errorMessage == run.1
    ensures fault.NoFault? && !run.0 && job.attempts + 1 >= job.maxRetries ==>
      && r.value.state == Dead
      && r.value.errorMessage == Some(MaxRetriesText(job.maxRetries, run.1))
      && r.value.nextRetryAt == job.nextRetryAt
    ensures fault.FirstSaveFails? ==>
      var n := job.attempts + (if run.0 then 1 else 2);
      && r.value.attempts == n
      && r.value.errorMessage == Some(UnexpectedError(fault.detail))
      && (r.value.state == Failed <==> n < job.maxRetries)
      && (n < job.maxRetries ==> r.value.nextRetryAt == At(now + Pow(base, n), true))
      && (n >= job.maxRetries ==> r.value.state == Dead)
  {
    match fault
    case NoFault => Some(Marked(job, run, base, now))
    case FirstSaveFails(detail) =>
      var message := Some(UnexpectedError(detail));
      Some(AfterFailure(Marked(job, run, base, now), message, message, base, now))
    case BothSavesFail => None
  }

  /** What a settled job looks like: completed, failed with a retry still
      permitted and scheduled, or dead with its retries spent; in every
      case the store got there from processing along a lifecycle edge. */
  lemma SettleKeepsJobInvariants(job: Job, run: (bool, Option<string>), fault: SaveFaults, base: nat, now: nat)
    ensures var r := Settle(job, run, fault, base, now);
      r.Some? ==>
      && LifecycleEdge(Processing, r.value.state)
      && (r.value.state == Failed ==> r.value.attempts < r.value.maxRetries && ShouldRetry(r.value) && r.value.nextRetryAt.At?)
      && (r.value.state == Dead ==> r.value.attempts >= r.value.maxRetries && !ShouldRetry(r.value))
      && (r.value.state == Failed && base >= 1 ==> r.value.nextRetryAt.time > now)
      && r.value.attempts >= job.attempts
  {
    var r := Settle(job, run, fault, base, now);
    if r.Some? && r.value.state == Failed && base >= 1 {
      PowPositive(base, r.value.attempts);
    }
  }

  /** `_process_job`: store the settled record, if any, and on every path
      clear the worker's current job. */
  function ProcessJob(s: Table, w: Worker, job: Job, run: (bool, Option<string>), fault: SaveFaults,
                      base: nat, now: nat): (r: (Table, Worker))
    ensures Settle(job, run, fault, base, now).Some? ==> GetJob(r.0, job.id) == Settle(job, run, fault, base, now)
    ensures Settle(job, run, fault, base, now).None? ==> r.0 == s
    ensures forall id :: id != job.id ==> GetJob(r.0, id) == GetJob(s, id)
    ensures r.1.currentJob == None && r.1.workerId == w.workerId && r.1.running == w.running
  {
    var stored := match Settle(job, run, fault, base, now)
      case None => s
      case Some(settled) => SaveJob(s, settled);
    (stored, w.(currentJob := None))
  }

  /** One pass of the work loop with a job to take: select and claim at
      `now`, run the command (its process outcome is `proc`, judged against
      `timeout`), and record the result at `later`. */
  datatype PollResult = PollResult(store: Table, worker: Worker, taken: Option<Job>)

  function Poll(s: Table, w: Worker, proc: Executor.ProcessOutcome, fault: SaveFaults, timeout: int,
                base: nat, now: nat, later: nat): (r: PollResult)
    ensures r.taken == NextJob(s, now).1
    ensures r.taken.None? ==> r.store == s && r.worker == w
    ensures r.taken.Some? ==> r.worker.currentJob == None
    ensures r.taken.Some? ==> forall id :: id != r.taken.value.id ==> GetJob(r.store, id) == GetJob(s, id)
    ensures r.taken.Some? && !fault.BothSavesFail? ==>
      GetJob(r.store, r.taken.value.id) == Settle(r.taken.value, Executor.Execute(proc, timeout), fault, base, later)
    ensures r.taken.Some? && fault.BothSavesFail? ==>
      GetJob(r.store, r.taken.value.id) == Some(MarkProcessing(r.taken.value, now))
  {
    NextJobTakesHead(s, now);
    var (claimed, taken) := NextJob(s, now);
    match taken
    case None => PollResult(s, w, None)
    case Some(job) =>
      GetJobFinds(s, job);
      var (stored, idle) := ProcessJob(claimed, w.(currentJob := Some(job)), job, Executor.Execute(proc, timeout),
                                       fault, base, later);
      PollResult(stored, idle, Some(job))
  }

  /** A poll moves the job it takes along two lifecycle edges: from pending
      or failed to processing when claimed, then to completed, failed or
      dead, unless both saves fail and it is stranded in processing; nothing
      else in the store changes. */
  lemma PollFollowsLifecycle(s: Table, w: Worker, proc: Executor.ProcessOutcome, fault: SaveFaults, timeout: int,
                             base: nat, now: nat, later: nat)
    ensures var r := Poll(s, w, proc, fault, timeout, base, now, later);
      r.taken.Some? ==>
        var j := r.taken.value;
        && GetJob(s, j.id) == Some(j)
        && LifecycleEdge(j.state, Processing)
        && GetJob(r.store, j.id).Some?
        && (fault.BothSavesFail? <==> GetJob(r.store, j.id).value.state == Processing)
        && (!fault.BothSavesFail? ==> LifecycleEdge(Processing, GetJob(r.store, j.id).value.state))
  {
    NextJobTakesHead(s, now);
    var r := Poll(s, w, proc, fault, timeout, base, now, later);
    if r.taken.Some? {
      var j := r.taken.value;
      GetJobFinds(s, j);
      SettleKeepsJobInvariants(j, Executor.Execute(proc, timeout), fault, base, later);
    }
  }

  /** The failures of an always-failing job, one per poll. */
  function Failures(job: Job, n: nat, message: Option<string>, base: nat, now: nat): Job {
    if n == 0 then job
    else Settle(Failures(job, n - 1, message, base, now), (false, message), NoFault, base, now).value
  }

  /** A fresh job with retry budget `m >= 1` that always fails is failed,
      awaiting a retry, after each of its first `m - 1` failures, and dead
      after the `m`-th, with `m` attempts recorded. */
  lemma {:induction false} AlwaysFailingJobDiesAfterMaxRetries(job: Job, n: nat, message: Option<string>,
                                                               base: nat, now: nat)
    requires job.attempts == 0 && 1 <= n <= job.maxRetries
    ensures Failures(job, n, message, base, now).attempts == n
    ensures Failures(job, n, message, base, now).maxRetries == job.maxRetries
    ensures n < job.maxRetries ==> Failures(job, n, message, base, now).state == Failed
    ensures n == job.maxRetries ==> Failures(job, n, message, base, now).state == Dead
  {
    if n > 1 {
      AlwaysFailingJobDiesAfterMaxRetries(job, n - 1, message, base, now);
    }
  }

  /** A failed save in the failure path counts the failure twice: the
      exception handler marks the already marked job failed again, so a job
      whose budget would have allowed a retry can go straight to the
      dead-letter queue with the save error as its message. */
  lemma SaveFailureCountsTwice(job: Job, message: Option<string>, detail: string, base: nat, now: nat)
    requires job.attempts + 1 < job.maxRetries == job.attempts + 2
    ensures Settle(job, (false, message), NoFault, base, now).value.state == Failed
    ensures var r := Settle(job, (false, message), FirstSaveFails(detail), base, now).value;
      r.state == Dead && r.attempts == job.attempts + 2 && r.errorMessage == Some(UnexpectedError(detail))
  {
  }

  /** The retry the worker schedules becomes eligible exactly when its
      backoff has elapsed. */
  lemma ScheduledRetryBecomesReady(s: Table, w: Worker, job: Job, message: Option<string>,
                                   base: nat, now: nat, later: nat)
    requires job.attempts + 1 < job.maxRetries
    ensures var r := ProcessJob(s, w, job, (false, message), NoFault, base, now).0;
      var settled := Settle(job, (false, message), NoFault, base, now).value;
      settled in FailedJobs(r, later) <==> now + Pow(base, job.attempts + 1) <= later
  {
  }

  /** The as-written retry query cannot cope with the retry times the worker
      itself writes: once the worker has scheduled a retry, `get_failed_jobs`
      raises at every later clock reading, so no failed job is ever retried. */
  lemma ScheduledRetryBreaksQueryAsWritten(s: Table, w: Worker, job: Job, message: Option<string>,
                                           base: nat, now: nat, later: nat)
    requires job.attempts + 1 < job.maxRetries
    ensures FailedJobsAsWritten(ProcessJob(s, w, job, (false, message), NoFault, base, now).0, later).Failure?
  {
  }

  /** So the as-written worker never takes a scheduled retry: once nothing is
      pending it takes no job at any later clock reading, while the intended
      query hands it the retry as soon as the backoff has elapsed. */
  lemma ScheduledRetryStrandedAsWritten(s: Table, w: Worker, job: Job, message: Option<string>,
                                        base: nat, now: nat, later: nat)
    requires job.attempts + 1 < job.maxRetries
    requires PendingJobs(ProcessJob(s, w, job, (false, message), NoFault, base, now).0) == []
    ensures NextJobAsWritten(ProcessJob(s, w, job, (false, message), NoFault, base, now).0, later).1 == None
    ensures now + Pow(base, job.attempts + 1) <= later ==>
      NextJob(ProcessJob(s, w, job, (false, message), NoFault, base, now).0, later).1.Some?
  {
    var r := ProcessJob(s, w, job, (false, message), NoFault, base, now).0;
    ScheduledRetryBreaksQueryAsWritten(s, w, job, message, base, now, later);
    if now + Pow(base, job.attempts + 1) <= later {
      ScheduledRetryBecomesReady(s, w, job, message, base, now, later);
      NextJobTakesHead(r, later);
    }
  }

  /** The worker pool: its running flag and its workers. */
  datatype Manager = Manager(running: bool, workers: seq<Worker>)

  /** The pool invariant: a stopped pool holds no workers. Every reachable
      pool, running or not, satisfies it. */
  predicate WellFormed(m: Manager) {
    !m.running ==> |m.workers| == 0
  }

  /** The number of running workers in `ws`: all of them exactly when every
      worker runs, none exactly when no worker does. */
  function RunningCount(ws: seq<Worker>): (n: nat)
    ensures n <= |ws|
    ensures n == |ws| <==> forall i :: 0 <= i < |ws| ==> ws[i].running
    ensures n == 0 <==> forall i :: 0 <= i < |ws| ==> !ws[i].running
  {
    if |ws| == 0 then 0
    else
      var init := ws[..|ws| - 1];
      assert forall i :: 0 <= i < |init| ==> init[i] == ws[i];
      (if ws[|ws| - 1].running then 1 else 0) + RunningCount(init)
  }

  lemma {:induction false} RunningCountAppend(a: seq<Worker>, b: seq<Worker>)
    ensures RunningCount(a + b) == RunningCount(a) + RunningCount(b)
  {
    if |b| > 0 {
      assert (a + b)[..|a + b| - 1] == a + b[..|b| - 1];
      RunningCountAppend(a, b[..|b| - 1]);
    } else {
      assert a + b == a;
    }
  }

  /** `get_active_worker_count`: the workers whose running flag is set. */
  function ActiveCount(m: Manager): (n: nat)
    ensures n <= |m.workers|
    ensures n == |m.workers| <==> forall i :: 0 <= i < |m.workers| ==> m.workers[i].running
    ensures n == 0 <==> forall i :: 0 <= i < |m.workers| ==> !m.workers[i].running
  {
    RunningCount(m.workers)
  }

  /** `count` workers numbered from 1, each created idle and started. */
  function Spawn(count: int): (ws: seq<Worker>)
    ensures |ws| == if count > 0 then count else 0
    ensures forall i :: 0 <= i < |ws| ==> ws[i] == Worker(i + 1, true, None)
  {
    if count <= 0 then [] else seq(count, i => StartWorker(Worker(i + 1, false, None)))
  }

  /** `start_workers`: no effect on a running pool; otherwise the pool is
      set running and `count` started workers join its list. */
  function StartWorkers(m: Manager, count: int): (r: Manager)
    ensures m.running ==> r == m
    ensures !m.running ==> |r.workers| == |m.workers| + (if count > 0 then count else 0)
    ensures !m.running ==> r.running && r.workers[..|m.workers|] == m.workers
    ensures !m.running ==> ActiveCount(r) == ActiveCount(m) + (if count > 0 then count else 0)
  {
    if m.running then m
    else
      var r := Manager(true, m.workers + Spawn(count));
      assert r.workers[..|m.workers|] == m.workers;
      RunningCountAppend(m.workers, Spawn(count));
      r
  }

  /** `stop_workers`: no effect on a stopped pool; otherwise the pool is
      marked stopped and its worker list emptied. */
  function StopWorkers(m: Manager): (r: Manager)
    ensures !m.running ==> r == m
    ensures !r.running
    ensures WellFormed(m) ==> WellFormed(r) && ActiveCount(r) == 0
  {
    if !m.running then m else Manager(false, [])
  }

  /** Starting an idle pool with `count >= 1` workers leaves exactly `count`
      active workers; stopping it returns to an idle pool with none. */
  lemma PoolLifecycle(m: Manager, count: int)
    requires WellFormed(m) && count >= 1
    ensures WellFormed(StartWorkers(m, count))
    ensures !m.running ==> |StartWorkers(m, count).workers| == count
    ensures !m.running ==> ActiveCount(StartWorkers(m, count)) == count
    ensures WellFormed(StopWorkers(StartWorkers(m, count)))
    ensures ActiveCount(StopWorkers(StartWorkers(m, count))) == 0
  {
  }
}

=== FILE: wrappers.dfy ===
/** Option and Result, the two failure-aware wrappers the model uses in place
    of Python's `None` returns and raised exceptions. */
module Wrappers {

  /** A value that may be absent, as Python's `Optional[...]`. */
  datatype Option<+T> = None | Some(value: T) {

    /** The wrapped value, or `default` when absent. */
    function GetOr(default: T): T {
      match this
      case Some(v) => v
      case None => default
    }
  }

  /** The outcome of an operation that either returns a value or raises. */
  datatype Result<+R, +E> = Success(value: R) | Failure(error: E)
}
